=== FILE: README.md ===
# PantryPal, modelled in Dafny

PantryPal is a small React front end with two flows. The recipe flow is a three-step
wizard. The user stages photos of ingredients in four categories, picks spices, allergies,
dietary choices and a few preferences, and asks a hosted model for two recipes. The
feast flow is one form (theme, guests, age group, cuisine, allergies) that asks the same
model for a four-course menu. Both flows send one request to the model service and parse
its JSON answer. Results are shown as recipe cards, with grocery links for the missing
items, or as the menu.

This project models the logic under that interface as pure functions over immutable
records:

- `Types` holds the records of `types.ts`.
- `MultiSelect` is the add-or-remove toggle both flows use.
- `ImageUploader` models staging picked images and removing them, with the browser's set
  of live preview URLs kept beside the list.
- `GeminiService` builds the prompt values, the prompts and the requests, reads images into
  inline parts, and handles the answer.
- `RecipeCard` models what a card lists and the two grocery search links.
- `RecipeGenerator` and `FeastPlanner` are the two components as state machines. A state
  transition exists for each handler. An enabled-action predicate says what the screen on
  show offers.
- `Text` holds the JavaScript string and array operations the code relies on: `filter`,
  `join`, `split`, `trim`, number-to-string.
- `Wrappers` holds `Option` and `Outcome`.

The model service is an oracle. A transport function takes the request and returns
`Ok(text)` or `Fail(message)`. `JSON.parse` is a function returning an `Option`. The
`FileReader` is a function from a file to an optional data URL. `encodeURIComponent` is a
parameter of the card. `crypto.randomUUID()` and `URL.createObjectURL` results come with
each picked file, as a `Pick`. A thrown value with no message is `Fail("")`, and both
components show their fixed fallback text for it.

The model follows the code as written, including:

- Resetting the recipe flow does not revoke staged previews. `ResetLeavesPreviewsLive`
  proves they stay live with nothing referring to them.
- The feast flow has a single form and no further steps.
- A `'None'` allergy value cannot be told apart from a user who typed "None". So the
  fallback is stated one way: the value is the fallback when every entry is empty, and
  the combined text otherwise.
- Dietary choices are joined without dropping empty entries.

## Model

| member | source | states |
|---|---|---|
| MultiSelect.Toggle | components/RecipeGenerator.tsx:45-47 | a present value leaves the list entirely: no copy remains, the others keep their order and counts; an absent value is appended at the end; no other value's membership changes |
| MultiSelect.ToggleTwiceAbsent | components/RecipeGenerator.tsx:45-47 | toggling an absent value twice gives back the original list exactly |
| MultiSelect.ToggleTwicePresent | components/RecipeGenerator.tsx:45-47 | toggling a present value twice in a duplicate-free list restores its contents, with the value moved to the end |
| MultiSelect.TogglePreservesNoDuplicates | components/RecipeGenerator.tsx:45-47 | a duplicate-free list stays duplicate-free under a toggle |
| MultiSelect.NoDuplicatesCounts | components/RecipeGenerator.tsx:45-47 | a list is duplicate-free exactly when no value occurs in it more than once |
| RecipeGenerator.WithCategory | components/RecipeGenerator.tsx:115-118 | an uploader's `setFiles`: that category holds the new list, the other three categories and every other form field are unchanged |
| RecipeGenerator.ApplyEdit | components/RecipeGenerator.tsx:129-171 | the text, select and number inputs: each sets its own field to the entered value and leaves every other field as it was; `EditKeepsImagesAndChoices` restates this for the images and the multi-select fields |
| RecipeGenerator.EditKeepsImagesAndChoices | components/RecipeGenerator.tsx:129-171 | an input's change keeps every image category and every multi-select field as it was |
| FeastPlanner.ApplyEdit | components/FeastPlanner.tsx:138-167 | the theme, cuisine, guests, age group and other-allergies inputs: each sets its own field to the entered value and leaves every other field, the allergy checkboxes included, as it was |
| RecipeGenerator.ToggleField | components/RecipeGenerator.tsx:42-49 | the named multi-select field is toggled; the other two and every other form field are unchanged |
| FeastPlanner.ToggleAllergy | components/FeastPlanner.tsx:37-44 | the feast allergies are toggled by the same rule and no other field changes |
| ImageUploader.AddFiles | components/ImageUploader.tsx:34-45 | without a file list nothing changes; otherwise the old entries come first, then one new entry per pick in pick order with its id and preview, and each new preview becomes live |
| ImageUploader.AddPreservesWellFormed | components/ImageUploader.tsx:36-41 | with fresh ids and preview URLs, ids stay unique, previews stay distinct and every staged preview is live |
| ImageUploader.FindIndex | components/ImageUploader.tsx:48 | finds the first entry with the id, and finds none exactly when no entry has it |
| ImageUploader.RemoveFile | components/ImageUploader.tsx:47-53 | no entry with the id remains; the others stay in order with their counts; a preview is revoked exactly when the id was staged, that of the first match; an absent id changes nothing |
| ImageUploader.FilterKeepsIdsUnique | components/ImageUploader.tsx:52 | removing by id keeps ids unique |
| ImageUploader.RemovePreservesWellFormed | components/ImageUploader.tsx:47-53 | on a well-formed staging, a removal keeps it well formed, and the removed entry's preview is the one revoked and no longer live |
| GeminiService.DataUrlPayload | services/geminiService.ts:17 | a payload exists exactly when the URL holds a comma, and it holds none itself |
| GeminiService.DataUrlPayloadRoundTrip | services/geminiService.ts:10-21 | the text after the first comma of `data:<type>;base64,<data>` is the data, when neither part holds a comma |
| GeminiService.DataUrlPayloadWithoutComma | services/geminiService.ts:17 | a text without a comma has no payload (`undefined`) |
| GeminiService.CombinedTextEmpty | services/geminiService.ts:64-65 | the filtered, comma-joined text is empty exactly when every entry is empty |
| GeminiService.CombinedTextContainsEach | services/geminiService.ts:64-65 | every selected entry and the typed text occur verbatim in the combined text |
| GeminiService.CombinedText | services/geminiService.ts:64-65 | the combined text; `CombinedTextShape`, `CombinedTextEmpty` and `CombinedTextContainsEach` state what it is |
| GeminiService.CombinedTextShape | services/geminiService.ts:64-65 | the non-empty selections come first in order, joined by ", ", and the typed text last when not empty |
| GeminiService.CombinedTextExample | services/geminiService.ts:65 | `["Milk", "Eggs"]` with `"kiwi"` gives `"Milk, Eggs, kiwi"` |
| GeminiService.CombinedOrElse | services/geminiService.ts:71 | the value is the fallback when every entry is empty, and otherwise the non-empty combined text; every entry occurs in it verbatim |
| GeminiService.CuisineText | services/geminiService.ts:70 | `Any` becomes the flow's phrase and every other cuisine is inserted verbatim |
| GeminiService.RecipePromptHasEveryLine | services/geminiService.ts:67-82 | each preference line appears verbatim in the recipe prompt |
| GeminiService.RecipePromptNamesEveryAllergy | services/geminiService.ts:65-71 | every selected and typed allergy appears verbatim in the recipe prompt |
| GeminiService.RecipePromptAllergyExample | services/geminiService.ts:65-71 | with `["Milk", "Eggs"]` and `"kiwi"` the prompt holds the allergy line for "Milk, Eggs, kiwi" |
| GeminiService.FeastPromptHasEveryLine | services/geminiService.ts:151-160 | each detail line appears verbatim in the feast prompt |
| GeminiService.ReadImages | services/geminiService.ts:52-62 | all reads succeed exactly when every file reads; then one part per image, in order, with that file's media type and the payload of its data URL |
| GeminiService.ImagePartsInCategoryOrder | services/geminiService.ts:52-62 | the parts list vegetables, fruits, proteins and greens in that order; its length is the sum of the four |
| GeminiService.ReadImagesWithWellFormedReader | services/geminiService.ts:10-21 | with a reader that yields well-formed data URLs, each part carries its file's base64 text |
| GeminiService.RecipeRequestLayout | services/geminiService.ts:84-96 | every image part comes before the prompt, which is the one text part, last |
| GeminiService.RecipeRequest | services/geminiService.ts:84-96 | the recipe request; `RecipeRequestLayout` states its layout |
| GeminiService.RecipePrompt | services/geminiService.ts:67-82 | the recipe prompt; `RecipePromptHasEveryLine` and `RecipePromptNamesEveryAllergy` state what it contains |
| GeminiService.FeastPrompt | services/geminiService.ts:153-160 | the feast prompt; `FeastPromptHasEveryLine` states what it contains |
| GeminiService.RecipeSpices | services/geminiService.ts:79 | the spices line, built from `allSpices` at line 64: `CombinedOrElse` with the fallback "Basic spices like salt and pepper" states it |
| GeminiService.RecipeAllergies | services/geminiService.ts:71 | the recipe allergies line, built from `allAllergies` at line 65: `CombinedOrElse` with the fallback "None" states it |
| GeminiService.FeastAllergies | services/geminiService.ts:158 | the feast allergies line, built from `allAllergies` at line 151: `CombinedOrElse` with the fallback "None" states it |
| GeminiService.RecipeDietary | services/geminiService.ts:72 | no dietary choice gives "None"; every chosen entry occurs verbatim in the value; with two choices or more the ", " separator follows the first entry even when entries are empty, so the value is never "None" then |
| GeminiService.FeastRequest | services/geminiService.ts:162-169 | the feast request carries the prompt text and no images, with the feast schema |
| GeminiService.ParseResponse | services/geminiService.ts:98-105 | a failed call passes its message; otherwise the trimmed text is parsed, a parse failure gives the fixed format message and a parsed value is returned unchecked |
| GeminiService.ParseIgnoresSurroundingWhitespace | services/geminiService.ts:98 | white space around the answer makes no difference |
| GeminiService.GenerateRecipes | services/geminiService.ts:51-106 | a failed read rejects without a message; a failed call passes its message; an unparsable answer gives the format message; a parsed answer is returned as it was parsed |
| GeminiService.GenerateFeastMenu | services/geminiService.ts:150-179 | a failed call passes its message; an unparsable answer gives the format message; a parsed answer is returned as it was parsed |
| GeminiService.ErrorText | components/RecipeGenerator.tsx:60 | a rejection's own message is shown, or the fixed fallback when it has none |
| RecipeCard.RenderList | components/RecipeCard.tsx:29 | each entry is shown once, in order, under a key no other element shares |
| RecipeCard.Card | components/RecipeCard.tsx:15-70 | the grocery block is there exactly when items are missing; ingredients, instructions and missing items are listed in order; the Swiggy link is its search URL followed by the encoded comma-joined items, the Blinkit link its search URL followed by the encoded space-joined items |
| RecipeCard.CardSwiggyRoundTrip | components/RecipeCard.tsx:49 | the Swiggy link of a card reads back as exactly its missing items, when none holds a comma and decoding undoes encoding |
| RecipeCard.SwiggyHref | components/RecipeCard.tsx:49 | the Swiggy link; `SwiggyLinkRoundTrip` and `SwiggyCommaInItem` state what it keeps and what it loses |
| RecipeCard.BlinkitHref | components/RecipeCard.tsx:57 | the Blinkit link; `BlinkitLinkAmbiguous` states that it loses the item boundaries |
| RecipeCard.SwiggyLinkRoundTrip | components/RecipeCard.tsx:49 | reading the Swiggy link back gives exactly the missing items, when none holds a comma and the decoder undoes the encoder |
| RecipeCard.SwiggyCommaInItem | components/RecipeCard.tsx:49 | an item with a comma gives the same link as two items |
| RecipeCard.BlinkitLinkAmbiguous | components/RecipeCard.tsx:57 | the space-joined Blinkit link cannot tell `olive oil` from `olive`, `oil` |
| RecipeGenerator.Step | components/RecipeGenerator.tsx:39-72 | "Next" and "Back" move the step by one and touch nothing else; the form changes only by its inputs, the uploaders and reset; the previews only by the uploaders; a generation starts loading with no error and no recipes; a success ends loading on step 4 with the returned recipes; a failure ends loading with the message, step and recipes unchanged; reset gives the fresh flow with the previews kept live |
| RecipeGenerator.Enabled | components/RecipeGenerator.tsx:200-240 | what each screen offers; `StepButtons`, `ErrorScreenOnlyResets` and `LoadingOnlyFinishes` state it |
| RecipeGenerator.StepButtons | components/RecipeGenerator.tsx:219-240 | "Back" on steps 2 and 3, "Next" on steps 1 and 2, "Generate Recipes!" on step 3, "Create a New Meal" on step 4: exactly one way forward on each step, and no completion without a pending call |
| RecipeGenerator.InitialForm | components/RecipeGenerator.tsx:7-22 | the default form; `InitialInv` and `ResetLeavesPreviewsLive` state what it gives |
| RecipeGenerator.View | components/RecipeGenerator.tsx:190-216 | loading wins over an error, which wins over the step screen |
| RecipeGenerator.ErrorScreenOnlyResets | components/RecipeGenerator.tsx:200-210 | the error screen offers only "Start Over" |
| RecipeGenerator.LoadingOnlyFinishes | components/RecipeGenerator.tsx:190-198 | while the request is pending the loading screen offers no control: the only possible action is its completion |
| RecipeGenerator.StepKeepsInv | components/RecipeGenerator.tsx:39-72 | every offered action keeps the steps in 1..4; loading only on step 3 with no error or recipes; no duplicate choices; staged images well formed |
| RecipeGenerator.ReachableInv | components/RecipeGenerator.tsx:33-72 | the invariant holds in every state reachable from a fresh flow |
| RecipeGenerator.AddKeepsImagesWellFormed | components/RecipeGenerator.tsx:115-118 | staging fresh picks in one category keeps all categories well formed and their previews apart |
| RecipeGenerator.RemoveKeepsImagesWellFormed | components/RecipeGenerator.tsx:115-118 | removing from one category keeps all categories well formed; no other category loses a live preview |
| RecipeGenerator.NoResultsWithoutSuccess | components/RecipeGenerator.tsx:219-234 | with only the offered buttons, the step stays in 1..3 with no recipes until a generation succeeds |
| RecipeGenerator.ResultsNeedSuccess | components/RecipeGenerator.tsx:51-64 | step 4 is reached only through a successful generation |
| RecipeGenerator.Submit | components/RecipeGenerator.tsx:51-64 | `handleSubmit` as a generation followed by the service's completion; `SubmitOutcome` and `SubmitFailureMessages` state its end states |
| RecipeGenerator.SubmitOutcome | components/RecipeGenerator.tsx:51-64 | success shows step 4 with the returned recipes in order; failure shows the message or the fallback on step 3 with no recipes; the form is kept; loading ends |
| RecipeGenerator.SubmitFailureMessages | components/RecipeGenerator.tsx:59-60 | a failed image read shows the fixed fallback; a failed call shows its own message |
| RecipeGenerator.ResetLeavesPreviewsLive | components/RecipeGenerator.tsx:66-72 | reset restores the default form, step 1, no recipes, no error, not loading; staged previews stay live |
| RecipeGenerator.InitialInv | components/RecipeGenerator.tsx:7-22 | the default form satisfies the invariant and the flow opens on step 1 |
| FeastPlanner.Step | components/FeastPlanner.tsx:37-70 | the form changes only by its inputs and reset; an empty theme only sets the theme error; a submission with a theme starts loading with error and menu cleared; a completion stops loading and sets the menu or the message; reset gives the fresh planner |
| FeastPlanner.Enabled | components/FeastPlanner.tsx:72-173 | what each screen offers; `ScreenButtons` states it |
| FeastPlanner.ScreenButtons | components/FeastPlanner.tsx:72-173 | the form screen offers submitting and not resetting; on the menu and error screens an action is possible exactly when it is resetting; while loading an action is possible exactly when it is the completion |
| FeastPlanner.InitialFeastForm | components/FeastPlanner.tsx:5-12 | the default feast form; `ResetRestoresForm` states that reset brings it back |
| FeastPlanner.SubmitWith | components/FeastPlanner.tsx:46-63 | an empty theme sets the theme error and nothing else; otherwise the planner ends on the returned menu or on the message, with loading ended and the form kept |
| FeastPlanner.EmptyThemeMakesNoCall | components/FeastPlanner.tsx:48-51 | with an empty theme the result does not depend on the service |
| FeastPlanner.WhitespaceThemeIsSent | components/FeastPlanner.tsx:48 | every non-empty theme of white space only, which trims to nothing, passes the guard and starts loading with the error and the menu cleared |
| FeastPlanner.View | components/FeastPlanner.tsx:72-129 | loading, then a non-empty error, then the menu, then the form |
| FeastPlanner.Courses | components/FeastPlanner.tsx:103-108 | exactly four courses: "Appetizer" with the appetizer, "Main Course" with the main course, "Dessert" with the dessert, "Beverage Suggestion" with the beverage, in that order |
| FeastPlanner.StepKeepsInv | components/FeastPlanner.tsx:37-70 | every offered action keeps: loading only with a theme, no menu and no error; a menu never beside an error; no duplicate allergy |
| FeastPlanner.ReachableInv | components/FeastPlanner.tsx:31-70 | from a fresh planner, the service is only awaited for a non-empty theme |
| FeastPlanner.SubmitOutcome | components/FeastPlanner.tsx:52-62 | a submission with a theme ends on the menu screen or the error screen, keeping the invariant |
| FeastPlanner.ResetRestoresForm | components/FeastPlanner.tsx:65-70 | reset gives exactly the fresh planner: default form, no menu, no error, not loading, the form screen, the invariant |
| Text.SplitJoin | services/geminiService.ts:17 | splitting a join on a one-character separator gives back the items, when none holds it |
| Text.Split | services/geminiService.ts:17 | at least one segment, none holding the separator, and one segment exactly when the text holds no separator |
| Text.JoinSplit | services/geminiService.ts:17 | joining the segments with the separator gives back the text |
| Text.Join | services/geminiService.ts:64 | `join`; `JoinContainsEach`, `SplitJoin` and `JoinSplit` state what it keeps |
| Text.JoinHasSeparator | services/geminiService.ts:72 | with two entries or more the separator stands right after the first entry |
| Text.JoinContainsEach | services/geminiService.ts:64-65 | every entry occurs verbatim in the joined text |
| Text.IntToString | components/RecipeCard.tsx:22 | a minus sign exactly for negatives, then decimal digits that read back as the magnitude, with no leading zero: zero is exactly "0" |
| Text.Trim | services/geminiService.ts:98 | the result sits in the text with only white space before and after it, and neither end of a non-empty result is white space |
| Text.TrimBetween | services/geminiService.ts:98 | trimming is fixed by where the first and last characters other than white space are |
| Text.TrimIgnoresSurroundingWhitespace | services/geminiService.ts:98 | trimming ignores white space added on either side |
| Text.TrimIdempotent | services/geminiService.ts:171 | trimming an already trimmed answer changes nothing |
| Text.Filter | services/geminiService.ts:64 | keeps exactly the entries the test accepts, in order, with their counts |

## Left out

- Rendering: JSX, styling, icons, the step indicator and `App.tsx`'s choice between the two
  flows. Only what each screen shows and offers is modelled.
- The model SDK, the network and the API key check at module load. The transport is a
  parameter that returns an `Outcome`.
- `FileReader` and base64 encoding. The reader is a parameter, and a failed read is a
  rejection without a message.
- `JSON.parse` is a parameter. The response schemas are a tag in the request, not objects.
  An answer of the wrong shape is not modelled: the card assumes `missingItems` is a list,
  and `response.text` is assumed to be defined.
- `crypto.randomUUID` and `URL.createObjectURL` results come with each `Pick`. Their
  freshness is a condition of the enabled actions. Revocation is the removal of the URL
  from the set of live URLs.
- `encodeURIComponent` is a parameter of the card, including its `URIError` on unpaired
  surrogates.
- Async interleavings, React state batching and stale closures are not modelled. A
  submission is a start action and a finish action.
- Numeric input: HTML `min`/`max`, `parseInt` giving `NaN`, and number formatting beyond
  integers. `IntToString` writes integers in decimal only.
- HTML `required` on the feast theme input. Only the handler's own empty-theme guard is
  modelled.
- The feast form's unused inventory fields (`types.ts:40-46`), and the `FeastPlan` and
  `DetailedRecipe` records, which no code uses.
- Logging of unparsable answers to the console.
- GeminiService.CombinedOrElse: states the fallback as two implications rather than an
  if-and-only-if, because a user who types the fallback text gets the same value.
- RecipeGenerator.Enabled: the select inputs are free text in the model; the option lists
  are not enforced.

=== FILE: feastplanner.dfy ===
/** The feast planner (components/FeastPlanner.tsx): a single form whose submission asks the
    service for a four-course menu. A state holds the form, the menu, the loading flag and
    the error; the handlers are actions on it. */
module FeastPlanner {
  import opened Wrappers
  import opened Types
  import opened Text
  import opened MultiSelect
  import opened GeminiService

  const MissingThemeError := "Please enter a theme for your feast!"

  const InitialFeastForm := FeastFormData("", 4, "Mixed Adults", "Any", [], "")

  /** `handleMultiSelectChange(value)`: the allergies are toggled and nothing else moves. */
  function ToggleAllergy(f: FeastFormData, v: string): (r: FeastFormData)
    ensures r.allergies == Toggle(f.allergies, v)
    ensures r.(allergies := f.allergies) == f
  {
    f.(allergies := Toggle(f.allergies, v))
  }

  /** The single-value inputs of the form. */
  datatype Edit =
    | Theme(text: string)
    | Cuisine(text: string)
    | Guests(n: int)
    | AgeGroup(text: string)
    | OtherAllergies(text: string)

  /** A text or number input of the form; the allergy checkboxes are left alone. */
  function ApplyEdit(f: FeastFormData, e: Edit): (r: FeastFormData)
    ensures r.allergies == f.allergies
    ensures e.Theme? ==> r.theme == e.text && r.(theme := f.theme) == f
    ensures e.Cuisine? ==> r.cuisine == e.text && r.(cuisine := f.cuisine) == f
    ensures e.Guests? ==> r.guests == e.n && r.(guests := f.guests) == f
    ensures e.AgeGroup? ==> r.ageGroup == e.text && r.(ageGroup := f.ageGroup) == f
    ensures e.OtherAllergies? ==> r.otherAllergies == e.text && r.(otherAllergies := f.otherAllergies) == f
  {
    match e
    case Theme(t) => f.(theme := t)
    case Cuisine(t) => f.(cuisine := t)
    case Guests(n) => f.(guests := n)
    case AgeGroup(t) => f.(ageGroup := t)
    case OtherAllergies(t) => f.(otherAllergies := t)
  }

  datatype State = State(form: FeastFormData, menu: Option<FeastMenu>, loading: bool, error: Option<string>)

  const Initial := State(InitialFeastForm, None, false, None)

  datatype Action =
    | ToggleChoice(value: string)
    | EditField(edit: Edit)
    | Submit
    | Finish(outcome: Outcome<FeastMenu>)
    | Reset

  /** `Submit` is the synchronous part of `handleSubmit`: an empty theme sets the error and
      stops; otherwise loading starts with the error and the menu cleared. `Finish` is the
      completion with the service's outcome. */
  function Step(s: State, a: Action): (r: State)
    ensures !(a.ToggleChoice? || a.EditField? || a.Reset?) ==> r.form == s.form
    ensures a.ToggleChoice? || a.EditField? ==> r.(form := s.form) == s
    ensures a.Submit? && s.form.theme == "" ==> r == s.(error := Some(MissingThemeError))
    ensures a.Submit? && s.form.theme != "" ==> r.loading && r.error.None? && r.menu.None?
    ensures a.Finish? ==> !r.loading
    ensures a.Finish? && a.outcome.Ok? ==> r.menu == Some(a.outcome.value) && r.error == s.error
    ensures a.Finish? && a.outcome.Fail? ==> r.menu == s.menu && r.error == Some(ErrorText(a.outcome.message))
    ensures a.Reset? ==> r == Initial
  {
    match a
    case ToggleChoice(v) => s.(form := ToggleAllergy(s.form, v))
    case EditField(e) => s.(form := ApplyEdit(s.form, e))
    case Submit =>
      if s.form.theme == "" then s.(error := Some(MissingThemeError))
      else s.(loading := true, error := None, menu := None)
    case Finish(Ok(m)) => s.(menu := Some(m), loading := false)
    case Finish(Fail(msg)) => s.(error := Some(ErrorText(msg)), loading := false)
    case Reset => Initial
  }

  /** Whether the submission reaches the service: exactly when the theme is not empty. */
  predicate CallsService(s: State)
  {
    s.form.theme != ""
  }

  /** One press of "Design My Menu", completed with the service's outcome when it is called.
      An empty theme stops at the theme error; otherwise the planner ends on the menu the
      service returned or on the failure's message. The form is kept either way. */
  function SubmitWith(s: State, transport: Request -> Outcome<string>,
                      parse: string -> Option<FeastMenu>): (r: State)
    ensures r.form == s.form
    ensures !CallsService(s) ==> r == s.(error := Some(MissingThemeError))
    ensures CallsService(s) ==>
              var outcome := GenerateFeastMenu(s.form, transport, parse);
              && !r.loading
              && (outcome.Ok? ==> r.menu == Some(outcome.value) && r.error.None?)
              && (outcome.Fail? ==> r.menu.None? && r.error == Some(ErrorText(outcome.message)))
  {
    var started := Step(s, Submit);
    if CallsService(s) then Step(started, Finish(GenerateFeastMenu(s.form, transport, parse)))
    else started
  }

  /** An empty theme stops the submission before any request: the result does not depend on
      the service, the error asks for a theme, and nothing else changes. */
  lemma EmptyThemeMakesNoCall(s: State, t1: Request -> Outcome<string>, t2: Request -> Outcome<string>,
                              parse: string -> Option<FeastMenu>)
    requires s.form.theme == ""
    ensures SubmitWith(s, t1, parse) == SubmitWith(s, t2, parse)
  {
  }

  /** The guard compares the theme with the empty string without trimming it, so a theme of
      white space only passes it and is sent. */
  lemma WhitespaceThemeIsSent(s: State)
    requires |s.form.theme| > 0 && AllWhitespace(s.form.theme)
    ensures CallsService(s)
    ensures Step(s, Submit) == s.(loading := true, error := None, menu := None)
    ensures Trim(s.form.theme) == ""
  {
    TrimIgnoresSurroundingWhitespace(s.form.theme, "", "");
    assert s.form.theme + "" + "" == s.form.theme;
    assert Trim("") == "";
  }

  /** What the component renders, by precedence: loading, a non-empty error, the menu, the
      form. */
  datatype Screen = LoadingScreen | ErrorScreen(message: string) | MenuScreen(menu: FeastMenu) | FormScreen

  function View(s: State): (r: Screen)
    ensures r.LoadingScreen? <==> s.loading
    ensures r.ErrorScreen? <==> !s.loading && s.error.Some? && s.error.value != ""
    ensures r.MenuScreen? ==> s.menu == Some(r.menu) && !s.loading
    ensures r.FormScreen? ==> s.menu.None? && !s.loading
  {
    if s.loading then LoadingScreen
    else if s.error.Some? && s.error.value != "" then ErrorScreen(s.error.value)
    else if s.menu.Some? then MenuScreen(s.menu.value)
    else FormScreen
  }

  predicate Enabled(s: State, a: Action)
  {
    match View(s)
    case LoadingScreen => a.Finish?
    case ErrorScreen(_) => a.Reset?
    case MenuScreen(_) => a.Reset?
    case FormScreen => a.ToggleChoice? || a.EditField? || a.Submit?
  }

  /** The form screen offers its inputs and "Design My Menu"; the menu screen and the error
      screen offer only starting over; while loading nothing but the pending call's completion
      can happen. */
  lemma ScreenButtons(s: State)
    ensures View(s) == FormScreen ==> Enabled(s, Submit) && !Enabled(s, Reset)
    ensures View(s).MenuScreen? || View(s).ErrorScreen? ==>
              Enabled(s, Reset) && !Enabled(s, Submit)
              && forall v :: !Enabled(s, ToggleChoice(v))
    ensures View(s) == LoadingScreen ==>
              !Enabled(s, Submit) && !Enabled(s, Reset) && forall o :: Enabled(s, Finish(o))
    ensures View(s).MenuScreen? || View(s).ErrorScreen? ==> forall a :: Enabled(s, a) <==> a == Reset
    ensures View(s) == LoadingScreen ==> forall a :: Enabled(s, a) <==> a.Finish?
  {
  }

  /** One menu course as the menu screen shows it. */
  datatype Course = Course(title: string, dish: Dish)

  /** The four courses, in menu order, each under its own title. */
  function Courses(m: FeastMenu): (r: seq<Course>)
    ensures |r| == 4
    ensures r[0] == Course("Appetizer", m.appetizer) && r[1] == Course("Main Course", m.mainCourse)
    ensures r[2] == Course("Dessert", m.dessert) && r[3] == Course("Beverage Suggestion", m.beverage)
  {
    [ Course("Appetizer", m.appetizer), Course("Main Course", m.mainCourse),
      Course("Dessert", m.dessert), Course("Beverage Suggestion", m.beverage) ]
  }

  /** Loading only with a non-empty theme, the error cleared and no menu; an error is never
      empty; a menu and an error never coexist. */
  predicate Inv(s: State)
  {
    && (s.loading ==> s.form.theme != "" && s.menu.None? && s.error.None?)
    && (s.error.Some? ==> s.error.value != "")
    && !(s.menu.Some? && s.error.Some?)
    && NoDuplicates(s.form.allergies)
  }

  lemma StepKeepsInv(s: State, a: Action)
    requires Inv(s)
    requires Enabled(s, a)
    ensures Inv(Step(s, a))
  {
    if a.ToggleChoice? {
      TogglePreservesNoDuplicates(s.form.allergies, a.value);
    }
  }

  function Run(s: State, actions: seq<Action>): State
    decreases |actions|
  {
    if |actions| == 0 then s else Run(Step(s, actions[0]), actions[1..])
  }

  predicate EnabledRun(s: State, actions: seq<Action>)
    decreases |actions|
  {
    |actions| == 0 || (Enabled(s, actions[0]) && EnabledRun(Step(s, actions[0]), actions[1..]))
  }

  lemma {:induction false} RunKeepsInv(s: State, actions: seq<Action>)
    requires Inv(s)
    requires EnabledRun(s, actions)
    ensures Inv(Run(s, actions))
    decreases |actions|
  {
    if |actions| > 0 {
      StepKeepsInv(s, actions[0]);
      RunKeepsInv(Step(s, actions[0]), actions[1..]);
    }
  }

  /** From a fresh planner, whatever the user does, the service is only ever awaited for a
      non-empty theme, and a menu is never shown beside an error. */
  lemma ReachableInv(actions: seq<Action>)
    requires EnabledRun(Initial, actions)
    ensures Inv(Run(Initial, actions))
    ensures Run(Initial, actions).loading ==> Run(Initial, actions).form.theme != ""
  {
    RunKeepsInv(Initial, actions);
  }

  /** On the form screen, a submission with a theme ends on the menu screen or the error
      screen, and keeps the invariant. */
  lemma SubmitOutcome(s: State, transport: Request -> Outcome<string>, parse: string -> Option<FeastMenu>)
    requires Inv(s) && View(s) == FormScreen
    requires s.form.theme != ""
    ensures var r := SubmitWith(s, transport, parse);
            var outcome := GenerateFeastMenu(s.form, transport, parse);
            && Inv(r)
            && (outcome.Ok? ==> View(r) == MenuScreen(outcome.value))
            && (outcome.Fail? ==> View(r) == ErrorScreen(ErrorText(outcome.message)))
  {
    var started := Step(s, Submit);
    StepKeepsInv(s, Submit);
    StepKeepsInv(started, Finish(GenerateFeastMenu(s.form, transport, parse)));
  }

  /** "Try Again" and "Plan Another Feast" bring back the fresh form. */
  lemma ResetRestoresForm(s: State)
    ensures Step(s, Reset) == Initial
    ensures Step(s, Reset).form == InitialFeastForm
    ensures Step(s, Reset).menu.None? && Step(s, Reset).error.None? && !Step(s, Reset).loading
    ensures View(Step(s, Reset)) == FormScreen
    ensures Inv(Step(s, Reset))
  {
  }
}

=== FILE: geminiservice.dfy ===
/** The generation client (services/geminiService.ts): the values a form contributes to the
    prompt, the prompt texts, the request sent to the hosted model, and the handling of its
    answer. The model call itself is a parameter `transport` that either yields the answer's
    text or fails with the thrown message; `JSON.parse` is a parameter `parse` that yields
    `None` where it would throw; `FileReader.readAsDataURL` is a parameter `reader` that
    yields the data URL of a file or `None` where the read fails. */
module GeminiService {
  import opened Wrappers
  import opened Types
  import opened Text

  const ModelName := "gemini-2.5-flash"
  const JsonMimeType := "application/json"
  const FormatErrorMessage := "The AI returned an unexpected response format. Please try again."

  /** The cuisine sentinel meaning "no preference". */
  const AnyCuisine := "Any"
  const RecipeAnyCuisinePhrase := "No specific preference, feel free to be creative!"
  const FeastAnyCuisinePhrase := "No specific preference, be creative with the theme."
  const NoneText := "None"
  const BasicSpices := "Basic spices like salt and pepper"

  // ---------------------------------------------------------------------------
  // Data URLs

  /** The `data:` URL `FileReader.readAsDataURL` yields: `data:<mediatype>;base64,<data>`. */
  function DataUrl(mediaType: string, base64: string): string
  {
    "data:" + mediaType + ";base64," + base64
  }

  /** `result.split(',')[1]`: the text between the first and the second comma, or to the end;
      `None` (the program's `undefined`) when there is no comma. */
  function DataUrlPayload(url: string): (r: Option<string>)
    ensures r.None? <==> ',' !in url
    ensures r.Some? ==> ',' !in r.value
  {
    var parts := Split(url, ',');
    if |parts| > 1 then Some(parts[1]) else None
  }

  /** The payload of a data URL whose media type and data hold no comma is its data, and a
      text without a comma has no payload. */
  lemma DataUrlPayloadRoundTrip(mediaType: string, base64: string)
    requires ',' !in mediaType && ',' !in base64
    ensures DataUrlPayload(DataUrl(mediaType, base64)) == Some(base64)
  {
    var head := "data:" + mediaType + ";base64";
    assert ',' !in head by {
      assert head == "data:" + mediaType + ";base64";
      forall i | 0 <= i < |head| ensures head[i] != ',' {
        if i < 5 {
        } else if i < 5 + |mediaType| {
          assert head[i] == mediaType[i - 5];
        } else {
          assert head[i] == ";base64"[i - 5 - |mediaType|];
        }
      }
    }
    assert DataUrl(mediaType, base64) == head + [','] + base64;
    SplitAfterFirst(head, ',', base64);
    SplitWithoutSeparator(base64, ',');
  }

  lemma DataUrlPayloadWithoutComma(url: string)
    requires ',' !in url
    ensures DataUrlPayload(url) == None
  {
    SplitWithoutSeparator(url, ',');
  }

  // ---------------------------------------------------------------------------
  // Prompt values

  /** `Boolean(e)` for a string: only the empty string is falsy. */
  predicate NonEmptyText(e: string)
  {
    e != ""
  }

  /** `[...selected, other].filter(Boolean).join(', ')`. */
  function CombinedText(selected: seq<string>, other: string): string
  {
    Join(Filter(selected + [other], NonEmptyText), ", ")
  }

  /** The combined text is empty exactly when every entry is. */
  lemma CombinedTextEmpty(selected: seq<string>, other: string)
    ensures var entries := selected + [other];
            CombinedText(selected, other) == "" <==> forall i :: 0 <= i < |entries| ==> entries[i] == ""
  {
    var entries := selected + [other];
    var kept := Filter(entries, NonEmptyText);
    JoinOfNonEmptyIsEmpty(kept, ", ");
    if kept == [] {
      forall i | 0 <= i < |entries| ensures entries[i] == "" {
        assert multiset(kept)[entries[i]] == 0;
        assert entries[i] in multiset(entries);
      }
    } else {
      assert NonEmptyText(kept[0]) && multiset(kept)[kept[0]] > 0;
    }
  }

  /** Every entry occurs verbatim in the combined text. */
  lemma CombinedTextContainsEach(selected: seq<string>, other: string)
    ensures forall i :: 0 <= i < |selected| ==> IsInfix(selected[i], CombinedText(selected, other))
    ensures IsInfix(other, CombinedText(selected, other))
  {
    var entries := selected + [other];
    var kept := Filter(entries, NonEmptyText);
    var text := CombinedText(selected, other);
    JoinContainsEach(kept, ", ");
    forall i | 0 <= i < |entries| ensures IsInfix(entries[i], text) {
      var e := entries[i];
      if e == "" {
        assert InfixAt(e, text, 0);
      } else {
        assert multiset(entries)[e] > 0;
        assert multiset(kept)[e] > 0;
        var k :| 0 <= k < |kept| && kept[k] == e;
      }
    }
    assert forall i :: 0 <= i < |selected| ==> entries[i] == selected[i];
    assert entries[|selected|] == other;
  }

  /** The non-empty selections come first, in order, and the typed text last. */
  lemma CombinedTextShape(selected: seq<string>, other: string)
    ensures var chosen := Filter(selected, NonEmptyText);
            CombinedText(selected, other) ==
              if other == "" then Join(chosen, ", ")
              else if chosen == [] then other
              else Join(chosen, ", ") + ", " + other
  {
    var chosen := Filter(selected, NonEmptyText);
    FilterConcat(selected, [other], NonEmptyText);
    if other != "" {
      assert Filter([other], NonEmptyText) == [other];
      JoinSnoc(chosen, other, ", ");
    } else {
      assert Filter([other], NonEmptyText) == [];
      assert chosen + [] == chosen;
    }
  }

  lemma JoinThree(a: string, b: string, c: string, sep: string)
    ensures Join([a, b, c], sep) == a + sep + b + sep + c
  {
    assert [a, b, c][1..] == [b, c];
    assert [b, c][1..] == [c];
    assert Join([b, c], sep) == b + sep + c;
    assert Join([a, b, c], sep) == a + sep + (b + sep + c);
    assert a + sep + (b + sep + c) == a + sep + b + sep + c;
  }

  lemma ExampleEntries()
    ensures Filter(["Milk", "Eggs"] + ["kiwi"], NonEmptyText) == ["Milk", "Eggs", "kiwi"]
  {
    assert ["Milk", "Eggs"] + ["kiwi"] == ["Milk", "Eggs", "kiwi"];
    FilterKeepsAll(["Milk", "Eggs", "kiwi"], NonEmptyText);
  }

  lemma ExampleText()
    ensures "Milk" + ", " + "Eggs" + ", " + "kiwi" == "Milk, Eggs, kiwi"
  {
  }

  /** Two selected allergies and one typed one. */
  lemma CombinedTextExample()
    ensures CombinedText(["Milk", "Eggs"], "kiwi") == "Milk, Eggs, kiwi"
  {
    ExampleEntries();
    JoinThree("Milk", "Eggs", "kiwi", ", ");
    ExampleText();
  }

  /** `text || fallback`: a JavaScript string is falsy exactly when it is empty. */
  function OrElse(text: string, fallback: string): string
  {
    if text == "" then fallback else text
  }

  /** The value for a combined field: the fallback when every entry is empty, otherwise the
      combined text; either way every entry occurs in it verbatim. */
  function CombinedOrElse(selected: seq<string>, other: string, fallback: string): (r: string)
    ensures (forall i :: 0 <= i < |selected| ==> selected[i] == "") && other == "" ==> r == fallback
    ensures (exists i :: 0 <= i < |selected| && selected[i] != "") || other != "" ==>
              r == CombinedText(selected, other) && r != ""
    ensures forall i :: 0 <= i < |selected| ==> IsInfix(selected[i], r)
    ensures IsInfix(other, r)
  {
    CombinedTextEmpty(selected, other);
    CombinedTextContainsEach(selected, other);
    var entries := selected + [other];
    assert forall i :: 0 <= i < |selected| ==> entries[i] == selected[i];
    assert entries[|selected|] == other;
    var text := CombinedText(selected, other);
    var r := OrElse(text, fallback);
    assert text == "" ==> forall i :: 0 <= i < |selected| ==> InfixAt(selected[i], r, 0);
    assert text == "" ==> InfixAt(other, r, 0);
    r
  }

  function RecipeSpices(f: FormData): string
  {
    CombinedOrElse(f.spices, f.otherSpices, BasicSpices)
  }

  function RecipeAllergies(f: FormData): string
  {
    CombinedOrElse(f.allergies, f.otherAllergies, NoneText)
  }

  /** Dietary choices are joined without dropping empty entries. */
  function RecipeDietary(f: FormData): (r: string)
    ensures |f.dietaryChoices| == 0 ==> r == NoneText
    ensures forall i :: 0 <= i < |f.dietaryChoices| ==> IsInfix(f.dietaryChoices[i], r)
    ensures |f.dietaryChoices| > 1 ==> InfixAt(", ", r, |f.dietaryChoices[0]|) && r != NoneText
  {
    JoinContainsEach(f.dietaryChoices, ", ");
    JoinHasSeparator(f.dietaryChoices, ", ");
    assert |f.dietaryChoices| > 1 ==> Join(f.dietaryChoices, ", ")[|f.dietaryChoices[0]|] == ',';
    if Join(f.dietaryChoices, ", ") == "" then
      assert InfixAt("", NoneText, 0);
      forall i | 0 <= i < |f.dietaryChoices| ensures IsInfix(f.dietaryChoices[i], NoneText) {
        assert f.dietaryChoices[i] == "" by {
          assert IsInfix(f.dietaryChoices[i], "");
        }
      }
      NoneText
    else Join(f.dietaryChoices, ", ")
  }

  function FeastAllergies(f: FeastFormData): string
  {
    CombinedOrElse(f.allergies, f.otherAllergies, NoneText)
  }

  /** The cuisine as the prompt states it: the flow's phrase for the `Any` sentinel, every
      other cuisine verbatim. */
  function CuisineText(cuisine: string, anyPhrase: string): (r: string)
    requires anyPhrase != AnyCuisine
    ensures cuisine == AnyCuisine ==> r == anyPhrase
    ensures r == cuisine <==> cuisine != AnyCuisine
  {
    if cuisine == AnyCuisine then anyPhrase else cuisine
  }

  // ---------------------------------------------------------------------------
  // Prompt texts

  const RecipeIntro := "You are a creative chef's assistant. Your goal is to suggest delicious recipes using only the ingredients provided, minimizing waste and the need for new groceries. Based on the following images of ingredients and user preferences, generate 2 recipe ideas.\n\n"
  const RecipeOutro := "\n\nFor each recipe, provide the recipe name, a description, ingredients used, step-by-step instructions, and a minimal list of essential items to buy if something crucial is missing. If nothing is missing, the 'missingItems' list should be empty. Ensure the cooking time for each recipe is within the user's specified limit and the recipe strongly reflects the chosen cuisine.\n\nReturn the response as a JSON array adhering to the provided schema.\n"

  function RecipeAllergyLine(f: FormData): string
  {
    "- Allergies: " + RecipeAllergies(f) + " (strictly avoid these)"
  }

  function RecipeCuisineLine(f: FormData): string
  {
    "- Cuisine Preference: " + CuisineText(f.cuisine, RecipeAnyCuisinePhrase)
  }

  function RecipeDietaryLine(f: FormData): string
  {
    "- Dietary Choices: " + RecipeDietary(f)
  }

  function RecipeMoodLine(f: FormData): string
  {
    "- Desired Mood: " + f.mood
  }

  function RecipeMealTypeLine(f: FormData): string
  {
    "- Meal Type: " + f.mealType
  }

  function RecipeTimeLine(f: FormData): string
  {
    "- Max Cooking Time: " + IntToString(f.cookingTime) + " minutes"
  }

  function RecipeServingsLine(f: FormData): string
  {
    "- Servings: " + IntToString(f.servings) + " people"
  }

  function RecipeSpicesLine(f: FormData): string
  {
    "- Available Spices: " + RecipeSpices(f)
  }

  const RecipePreferencesHeader := "- **User Preferences:**"

  /** The preference lines of the recipe prompt, top to bottom. */
  function RecipeLines(f: FormData): seq<string>
  {
    [ RecipePreferencesHeader, RecipeCuisineLine(f), RecipeAllergyLine(f), RecipeDietaryLine(f),
      RecipeMoodLine(f), RecipeMealTypeLine(f), RecipeTimeLine(f), RecipeServingsLine(f),
      RecipeSpicesLine(f) ]
  }

  function RecipePrompt(f: FormData): string
  {
    RecipeIntro + Join(RecipeLines(f), "\n") + RecipeOutro
  }

  const FeastIntro := "You are an expert event caterer. Plan a full course menu (appetizer, main course, dessert, and a beverage suggestion) for a feast based on the following details:\n"
  const FeastOutro := "\n\nThe menu should be cohesive and appropriate for the theme and strongly reflect the chosen cuisine. For each dish, provide the name and a brief, enticing description. Return the response as a single JSON object adhering to the provided schema."

  function FeastAllergyLine(f: FeastFormData): string
  {
    "- **Allergies to Avoid:** " + FeastAllergies(f)
      + " (strictly avoid any ingredients related to these allergies)"
  }

  function FeastThemeLine(f: FeastFormData): string
  {
    "- **Theme/Occasion:** " + f.theme
  }

  function FeastCuisineLine(f: FeastFormData): string
  {
    "- **Cuisine Preference:** " + CuisineText(f.cuisine, FeastAnyCuisinePhrase)
  }

  function FeastGuestsLine(f: FeastFormData): string
  {
    "- **Number of Guests:** " + IntToString(f.guests)
  }

  function FeastAgeLine(f: FeastFormData): string
  {
    "- **Guest Age Profile:** " + f.ageGroup
  }

  /** The detail lines of the feast prompt, top to bottom. */
  function FeastLines(f: FeastFormData): seq<string>
  {
    [ FeastThemeLine(f), FeastCuisineLine(f), FeastGuestsLine(f), FeastAgeLine(f), FeastAllergyLine(f) ]
  }

  function FeastPrompt(f: FeastFormData): string
  {
    FeastIntro + Join(FeastLines(f), "\n") + FeastOutro
  }

  /** Every preference line appears, verbatim, in the recipe prompt. */
  lemma RecipePromptHasEveryLine(f: FormData)
    ensures forall i :: 0 <= i < |RecipeLines(f)| ==> IsInfix(RecipeLines(f)[i], RecipePrompt(f))
  {
    var lines := RecipeLines(f);
    JoinContainsEach(lines, "\n");
    forall i | 0 <= i < |lines| ensures IsInfix(lines[i], RecipePrompt(f)) {
      InfixWiden(lines[i], RecipeIntro, Join(lines, "\n"), RecipeOutro);
    }
  }

  /** Every preference line appears, verbatim, in the feast prompt. */
  lemma FeastPromptHasEveryLine(f: FeastFormData)
    ensures forall i :: 0 <= i < |FeastLines(f)| ==> IsInfix(FeastLines(f)[i], FeastPrompt(f))
  {
    var lines := FeastLines(f);
    JoinContainsEach(lines, "\n");
    forall i | 0 <= i < |lines| ensures IsInfix(lines[i], FeastPrompt(f)) {
      InfixWiden(lines[i], FeastIntro, Join(lines, "\n"), FeastOutro);
    }
  }

  lemma RecipePromptHasAllergyLine(f: FormData)
    ensures IsInfix(RecipeAllergyLine(f), RecipePrompt(f))
  {
    var lines := RecipeLines(f);
    assert RecipeAllergyLine(f) in lines;
    var i :| 0 <= i < |lines| && lines[i] == RecipeAllergyLine(f);
    JoinContainsEach(lines, "\n");
    InfixWiden(lines[i], RecipeIntro, Join(lines, "\n"), RecipeOutro);
  }

  /** Every allergy the user selected or typed reaches the recipe prompt. */
  lemma RecipePromptNamesEveryAllergy(f: FormData)
    ensures forall i :: 0 <= i < |f.allergies| ==> IsInfix(f.allergies[i], RecipePrompt(f))
    ensures IsInfix(f.otherAllergies, RecipePrompt(f))
  {
    var prompt := RecipePrompt(f);
    var line := RecipeAllergyLine(f);
    var value := RecipeAllergies(f);
    RecipePromptHasAllergyLine(f);
    InfixOfConcat("- Allergies: ", value, " (strictly avoid these)");
    InfixTransitive(value, line, prompt);
    forall i | 0 <= i < |f.allergies| ensures IsInfix(f.allergies[i], prompt) {
      InfixTransitive(f.allergies[i], value, prompt);
    }
    InfixTransitive(f.otherAllergies, value, prompt);
  }

  lemma ExampleAllergies(f: FormData)
    requires f.allergies == ["Milk", "Eggs"] && f.otherAllergies == "kiwi"
    ensures RecipeAllergies(f) == "Milk, Eggs, kiwi"
  {
    CombinedTextExample();
    assert f.otherAllergies != "";
  }

  /** With two selected allergies and one typed one, the allergy line reads "Milk, Eggs, kiwi". */
  lemma RecipePromptAllergyExample(f: FormData)
    requires f.allergies == ["Milk", "Eggs"] && f.otherAllergies == "kiwi"
    ensures IsInfix("- Allergies: " + "Milk, Eggs, kiwi" + " (strictly avoid these)", RecipePrompt(f))
  {
    ExampleAllergies(f);
    RecipePromptHasAllergyLine(f);
  }

  // ---------------------------------------------------------------------------
  // Requests

  datatype InlineData = InlineData(mimeType: string, data: Option<string>)
  datatype Part = InlinePart(inlineData: InlineData) | TextPart(text: string)

  /** A list of parts, or a bare prompt text. */
  datatype Contents = Parts(parts: seq<Part>) | PromptText(text: string)

  /** Which of the two fixed response schemas a request names. */
  datatype Schema = RecipeListSchema | FeastMenuSchema

  datatype Request = Request(model: string, contents: Contents, responseMimeType: string, schema: Schema)

  /** The staged images of a recipe form, category after category. */
  function AllImages(f: FormData): seq<ImageFile>
  {
    f.vegetables + f.fruits + f.proteins + f.greens
  }

  /** `Promise.all(images.map(...))`: one inline part per image, in order, carrying the
      image's own media type and the payload of its data URL; a failed read fails the lot. */
  function ReadImages(images: seq<ImageFile>, reader: File -> Option<string>): (r: Option<seq<InlineData>>)
    ensures r.Some? <==> forall i :: 0 <= i < |images| ==> reader(images[i].file).Some?
    ensures r.Some? ==>
              && |r.value| == |images|
              && forall i :: 0 <= i < |images| ==>
                   r.value[i] == InlineData(images[i].file.mediaType,
                                            DataUrlPayload(reader(images[i].file).value))
    decreases |images|
  {
    if |images| == 0 then Some([])
    else
      var file := images[0].file;
      match reader(file)
      case None => None
      case Some(url) =>
        match ReadImages(images[1..], reader)
        case None => None
        case Some(rest) =>
          assert forall i :: 1 <= i < |images| ==> images[i] == images[1..][i - 1];
          Some([InlineData(file.mediaType, DataUrlPayload(url))] + rest)
  }

  /** The parts of the recipe request list vegetables, fruits, proteins and greens in that
      order, each category in staging order, each with its own file's media type. */
  lemma ImagePartsInCategoryOrder(f: FormData, reader: File -> Option<string>)
    requires ReadImages(AllImages(f), reader).Some?
    ensures var ps := ReadImages(AllImages(f), reader).value;
            && |ps| == |f.vegetables| + |f.fruits| + |f.proteins| + |f.greens|
            && (forall i :: 0 <= i < |f.vegetables| ==>
                  ps[i].mimeType == f.vegetables[i].file.mediaType)
            && (forall i :: 0 <= i < |f.fruits| ==>
                  ps[|f.vegetables| + i].mimeType == f.fruits[i].file.mediaType)
            && (forall i :: 0 <= i < |f.proteins| ==>
                  ps[|f.vegetables| + |f.fruits| + i].mimeType == f.proteins[i].file.mediaType)
            && (forall i :: 0 <= i < |f.greens| ==>
                  ps[|f.vegetables| + |f.fruits| + |f.proteins| + i].mimeType
                    == f.greens[i].file.mediaType)
  {
    MediaTypesInOrder(AllImages(f), reader);
    CategoriesInOrder(ReadImages(AllImages(f), reader).value, f.vegetables, f.fruits, f.proteins, f.greens);
  }

  /** Each part carries the media type of the image at its position. */
  predicate CarriesMediaTypes(ps: seq<InlineData>, images: seq<ImageFile>)
  {
    && |ps| == |images|
    && forall k :: 0 <= k < |images| ==> ps[k].mimeType == images[k].file.mediaType
  }

  lemma MediaTypesInOrder(images: seq<ImageFile>, reader: File -> Option<string>)
    requires ReadImages(images, reader).Some?
    ensures CarriesMediaTypes(ReadImages(images, reader).value, images)
  {
  }

  /** Parts that follow four concatenated categories fall into four consecutive blocks, one
      per category. */
  lemma CategoriesInOrder(ps: seq<InlineData>, w: seq<ImageFile>, x: seq<ImageFile>,
                          y: seq<ImageFile>, z: seq<ImageFile>)
    requires CarriesMediaTypes(ps, w + x + y + z)
    ensures |ps| == |w| + |x| + |y| + |z|
    ensures forall i :: 0 <= i < |w| ==> ps[i].mimeType == w[i].file.mediaType
    ensures forall i :: 0 <= i < |x| ==> ps[|w| + i].mimeType == x[i].file.mediaType
    ensures forall i :: 0 <= i < |y| ==> ps[|w| + |x| + i].mimeType == y[i].file.mediaType
    ensures forall i :: 0 <= i < |z| ==> ps[|w| + |x| + |y| + i].mimeType == z[i].file.mediaType
  {
    var all := w + x + y + z;
    ConcatPositions(w, x, y, z);
    PartsOfCategory(ps, all, 0, w);
    PartsOfCategory(ps, all, |w|, x);
    PartsOfCategory(ps, all, |w| + |x|, y);
    PartsOfCategory(ps, all, |w| + |x| + |y|, z);
  }

  /** Where each of four concatenated lists sits in the concatenation. */
  lemma ConcatPositions<T>(w: seq<T>, x: seq<T>, y: seq<T>, z: seq<T>)
    ensures |w + x + y + z| == |w| + |x| + |y| + |z|
    ensures forall i :: 0 <= i < |w| ==> (w + x + y + z)[i] == w[i]
    ensures forall i :: 0 <= i < |x| ==> (w + x + y + z)[|w| + i] == x[i]
    ensures forall i :: 0 <= i < |y| ==> (w + x + y + z)[|w| + |x| + i] == y[i]
    ensures forall i :: 0 <= i < |z| ==> (w + x + y + z)[|w| + |x| + |y| + i] == z[i]
  {
  }

  /** The parts at the positions of one category carry that category's media types. */
  lemma PartsOfCategory(ps: seq<InlineData>, images: seq<ImageFile>, off: nat, cat: seq<ImageFile>)
    requires CarriesMediaTypes(ps, images)
    requires off + |cat| <= |images|
    requires forall i :: 0 <= i < |cat| ==> images[off + i] == cat[i]
    ensures forall i :: 0 <= i < |cat| ==> ps[off + i].mimeType == cat[i].file.mediaType
  {
    forall i | 0 <= i < |cat| ensures ps[off + i].mimeType == cat[i].file.mediaType {
      assert images[off + i] == cat[i];
    }
  }

  /** With a reader that yields well-formed data URLs, every part carries its file's base64
      text. */
  lemma ReadImagesWithWellFormedReader(images: seq<ImageFile>, reader: File -> Option<string>,
                                       base64: seq<byte> -> string)
    requires forall i :: 0 <= i < |images| ==>
               reader(images[i].file) == Some(DataUrl(images[i].file.mediaType, base64(images[i].file.bytes)))
    requires forall i :: 0 <= i < |images| ==>
               ',' !in images[i].file.mediaType && ',' !in base64(images[i].file.bytes)
    ensures ReadImages(images, reader).Some?
    ensures forall i :: 0 <= i < |images| ==>
              ReadImages(images, reader).value[i].data == Some(base64(images[i].file.bytes))
  {
    forall i | 0 <= i < |images|
      ensures DataUrlPayload(reader(images[i].file).value) == Some(base64(images[i].file.bytes))
    {
      DataUrlPayloadRoundTrip(images[i].file.mediaType, base64(images[i].file.bytes));
    }
  }

  function RecipeRequest(f: FormData, images: seq<InlineData>): Request
  {
    Request(ModelName,
            Parts(seq(|images|, i requires 0 <= i < |images| => InlinePart(images[i]))
                  + [TextPart(RecipePrompt(f))]),
            JsonMimeType, RecipeListSchema)
  }

  /** All image parts come first, in order, and the prompt is the one text part, last. */
  lemma RecipeRequestLayout(f: FormData, images: seq<InlineData>)
    ensures var r := RecipeRequest(f, images);
            && r.contents.Parts?
            && |r.contents.parts| == |images| + 1
            && (forall i :: 0 <= i < |images| ==> r.contents.parts[i] == InlinePart(images[i]))
            && r.contents.parts[|images|] == TextPart(RecipePrompt(f))
            && (forall i :: 0 <= i < |r.contents.parts| && r.contents.parts[i].TextPart? ==> i == |images|)
            && r.schema == RecipeListSchema && r.responseMimeType == JsonMimeType
  {
  }

  /** The feast request carries the prompt text and nothing else. */
  function FeastRequest(f: FeastFormData): (r: Request)
    ensures r.contents == PromptText(FeastPrompt(f))
    ensures r.schema == FeastMenuSchema && r.responseMimeType == JsonMimeType
  {
    Request(ModelName, PromptText(FeastPrompt(f)), JsonMimeType, FeastMenuSchema)
  }

  // ---------------------------------------------------------------------------
  // Answers

  /** The answer's text is trimmed and parsed; a failed call passes its message through
      unchanged, a parse failure becomes the fixed format message, and whatever parses is
      returned as it is, its shape unchecked. */
  function ParseResponse<T>(response: Outcome<string>, parse: string -> Option<T>): (r: Outcome<T>)
    ensures response.Fail? ==> r == Fail(response.message)
    ensures response.Ok? ==> (r.Ok? <==> parse(Trim(response.value)).Some?)
    ensures response.Ok? && r.Ok? ==> r.value == parse(Trim(response.value)).value
    ensures response.Ok? && r.Fail? ==> r.message == FormatErrorMessage
  {
    match response
    case Fail(message) => Fail(message)
    case Ok(text) =>
      match parse(Trim(text))
      case None => Fail(FormatErrorMessage)
      case Some(value) => Ok(value)
  }

  /** White space around the answer's text makes no difference to the result. */
  lemma ParseIgnoresSurroundingWhitespace<T>(w1: string, text: string, w2: string, parse: string -> Option<T>)
    requires AllWhitespace(w1) && AllWhitespace(w2)
    ensures ParseResponse(Ok(w1 + text + w2), parse) == ParseResponse(Ok(text), parse)
  {
    TrimIgnoresSurroundingWhitespace(w1, text, w2);
  }

  /** `generateRecipes`: read the images, send one request, parse the answer. A failed read
      rejects with the reader's error event, which has no message. */
  function GenerateRecipes(f: FormData, reader: File -> Option<string>,
                           transport: Request -> Outcome<string>,
                           parse: string -> Option<seq<Recipe>>): (r: Outcome<seq<Recipe>>)
    ensures ReadImages(AllImages(f), reader).None? ==> r == Fail("")
    ensures ReadImages(AllImages(f), reader).Some? ==>
              var request := RecipeRequest(f, ReadImages(AllImages(f), reader).value);
              (transport(request).Fail? ==> r == Fail(transport(request).message))
              && (transport(request).Ok? && parse(Trim(transport(request).value)).None? ==>
                    r == Fail(FormatErrorMessage))
              && (transport(request).Ok? && parse(Trim(transport(request).value)).Some? ==>
                    r == Ok(parse(Trim(transport(request).value)).value))
  {
    match ReadImages(AllImages(f), reader)
    case None => Fail("")
    case Some(images) => ParseResponse(transport(RecipeRequest(f, images)), parse)
  }

  /** `generateFeastMenu`: one request with the prompt only, then the same answer handling. */
  function GenerateFeastMenu(f: FeastFormData, transport: Request -> Outcome<string>,
                             parse: string -> Option<FeastMenu>): (r: Outcome<FeastMenu>)
    ensures transport(FeastRequest(f)).Fail? ==> r == Fail(transport(FeastRequest(f)).message)
    ensures transport(FeastRequest(f)).Ok? ==>
              var parsed := parse(Trim(transport(FeastRequest(f)).value));
              && (parsed.None? ==> r == Fail(FormatErrorMessage))
              && (parsed.Some? ==> r == Ok(parsed.value))
  {
    ParseResponse(transport(FeastRequest(f)), parse)
  }

  // ---------------------------------------------------------------------------
  // What the callers show

  const UnknownError := "An unknown error occurred."

  /** `err.message || 'An unknown error occurred.'`: both flows show a rejection's own
      message, or the fixed text when it has none. */
  function ErrorText(message: string): (r: string)
    ensures r != ""
    ensures message != "" ==> r == message
    ensures message == "" ==> r == UnknownError
  {
    if message == "" then UnknownError else message
  }
}

=== FILE: imageuploader.dfy ===
/** Image staging for one category (components/ImageUploader.tsx): picked files are appended
    with fresh ids and preview URLs; removing an id drops every entry with it and revokes
    the preview of the first one. The browser's table of live object URLs is kept beside the
    list, so that acquisition and release of previews can be followed. */
module ImageUploader {
  import opened Wrappers
  import opened Types
  import opened Text

  /** One picked file, with the id `crypto.randomUUID()` and the object URL
      `URL.createObjectURL(file)` returned for it. */
  datatype Pick = Pick(file: File, id: string, preview: string)

  /** The staged list of a category and the set of object URLs that are live. */
  datatype Staging = Staging(files: seq<ImageFile>, live: set<string>)

  /** What a removal leaves behind, and the preview it revoked, if any. */
  datatype Removal = Removal(staging: Staging, released: Option<string>)

  predicate HasId(files: seq<ImageFile>, id: string)
  {
    exists i :: 0 <= i < |files| && files[i].id == id
  }

  predicate UniqueIds(files: seq<ImageFile>)
  {
    forall i, j :: 0 <= i < j < |files| ==> files[i].id != files[j].id
  }

  /** Ids are unique, previews are pairwise distinct, and every staged preview is live. */
  predicate WellFormed(s: Staging)
  {
    && UniqueIds(s.files)
    && (forall i, j :: 0 <= i < j < |s.files| ==> s.files[i].preview != s.files[j].preview)
    && (forall i :: 0 <= i < |s.files| ==> s.files[i].preview in s.live)
  }

  /** What the environment guarantees of a batch of picks: every id is new and every preview
      URL is a URL not live before, and no two picks share either. */
  predicate FreshPicks(s: Staging, picks: seq<Pick>)
  {
    && (forall k :: 0 <= k < |picks| ==> !HasId(s.files, picks[k].id) && picks[k].preview !in s.live)
    && (forall k, l :: 0 <= k < l < |picks| ==>
          picks[k].id != picks[l].id && picks[k].preview != picks[l].preview)
  }

  function NewEntry(p: Pick): ImageFile
  {
    ImageFile(p.id, p.file, p.preview)
  }

  function Previews(picks: seq<Pick>): set<string>
  {
    set p | p in picks :: p.preview
  }

  /** `handleFileChange`: without a file list nothing changes; otherwise the old entries stay
      first and one new entry per pick follows, in pick order, each preview now live. */
  function AddFiles(s: Staging, picked: Option<seq<Pick>>): (r: Staging)
    ensures picked.None? ==> r == s
    ensures picked.Some? ==>
              && |r.files| == |s.files| + |picked.value|
              && r.files[..|s.files|] == s.files
              && (forall k :: 0 <= k < |picked.value| ==>
                    r.files[|s.files| + k] == NewEntry(picked.value[k]))
              && r.live == s.live + Previews(picked.value)
  {
    match picked
    case None => s
    case Some(ps) =>
      Staging(s.files + seq(|ps|, k requires 0 <= k < |ps| => NewEntry(ps[k])),
              s.live + Previews(ps))
  }

  /** Adding fresh picks keeps the staging well formed: ids stay unique. */
  lemma AddPreservesWellFormed(s: Staging, picks: seq<Pick>)
    requires WellFormed(s)
    requires FreshPicks(s, picks)
    ensures WellFormed(AddFiles(s, Some(picks)))
  {
    var r := AddFiles(s, Some(picks));
    var n := |s.files|;
    assert forall i :: 0 <= i < n ==> r.files[i] == r.files[..n][i] == s.files[i];
    forall i, j | 0 <= i < j < |r.files|
      ensures r.files[i].id != r.files[j].id && r.files[i].preview != r.files[j].preview
    {
      if j < n {
        assert r.files[j] == s.files[j];
      } else if i < n {
        assert r.files[j] == NewEntry(picks[j - n]);
        assert !HasId(s.files, picks[j - n].id);
        assert s.files[i].preview in s.live;
      } else {
        assert r.files[i] == NewEntry(picks[i - n]) && r.files[j] == NewEntry(picks[j - n]);
      }
    }
    forall i | 0 <= i < |r.files| ensures r.files[i].preview in r.live {
      if i >= n {
        assert picks[i - n] in picks;
      }
    }
  }

  /** `files.findIndex(f => f.id === id)`, as an option. */
  function FindIndex(files: seq<ImageFile>, id: string): (r: Option<nat>)
    ensures r.None? <==> !HasId(files, id)
    ensures r.Some? ==>
              && r.value < |files|
              && files[r.value].id == id
              && forall j :: 0 <= j < r.value ==> files[j].id != id
    decreases |files|
  {
    if |files| == 0 then None
    else if files[0].id == id then Some(0)
    else
      match FindIndex(files[1..], id)
      case None =>
        assert forall i :: 1 <= i < |files| ==> files[i] == files[1..][i - 1];
        None
      case Some(k) => Some(k + 1)
  }

  /** `removeFile(id)`: no entry with `id` remains, every other entry stays in its order, and
      a preview is revoked exactly when an entry with `id` existed: that of the first one. */
  function RemoveFile(s: Staging, id: string): (r: Removal)
    ensures !HasId(r.staging.files, id)
    ensures IsSubsequence(r.staging.files, s.files)
    ensures forall f: ImageFile :: f.id != id ==> multiset(r.staging.files)[f] == multiset(s.files)[f]
    ensures r.released.Some? <==> HasId(s.files, id)
    ensures !HasId(s.files, id) ==> r == Removal(s, None)
    ensures HasId(s.files, id) ==>
              exists k :: && 0 <= k < |s.files|
                          && s.files[k].id == id
                          && (forall j :: 0 <= j < k ==> s.files[j].id != id)
                          && r.released == Some(s.files[k].preview)
                          && r.staging.live == s.live - {s.files[k].preview}
  {
    var keep := (f: ImageFile) => f.id != id;
    var kept := Filter(s.files, keep);
    assert forall i :: 0 <= i < |kept| ==> kept[i].id != id;
    match FindIndex(s.files, id)
    case None =>
      FilterKeepsAll(s.files, keep);
      Removal(Staging(kept, s.live), None)
    case Some(k) =>
      Removal(Staging(kept, s.live - {s.files[k].preview}), Some(s.files[k].preview))
  }

  /** Filtering keeps ids unique. */
  lemma {:induction false} FilterKeepsIdsUnique(files: seq<ImageFile>, id: string)
    requires UniqueIds(files)
    ensures UniqueIds(Filter(files, (f: ImageFile) => f.id != id))
    decreases |files|
  {
    var keep := (f: ImageFile) => f.id != id;
    if |files| > 0 {
      var t := files[1..];
      TailIdsUnique(files);
      FilterKeepsIdsUnique(t, id);
      var ft := Filter(t, keep);
      if keep(files[0]) {
        assert forall i :: 0 <= i < |t| ==> t[i].id != files[0].id;
        forall i | 0 <= i < |ft| ensures ft[i].id != files[0].id {
          FilteredEntryFromList(t, keep, ft[i]);
        }
        ConsIdsUnique(files[0], ft);
        assert Filter(files, keep) == [files[0]] + ft;
      } else {
        assert Filter(files, keep) == ft;
      }
    }
  }

  lemma TailIdsUnique(files: seq<ImageFile>)
    requires |files| > 0 && UniqueIds(files)
    ensures UniqueIds(files[1..])
  {
    var t := files[1..];
    forall i, j | 0 <= i < j < |t| ensures t[i].id != t[j].id {
      assert t[i] == files[i + 1] && t[j] == files[j + 1];
    }
  }

  lemma ConsIdsUnique(x: ImageFile, t: seq<ImageFile>)
    requires UniqueIds(t)
    requires forall i :: 0 <= i < |t| ==> t[i].id != x.id
    ensures UniqueIds([x] + t)
  {
    var u := [x] + t;
    forall i, j | 0 <= i < j < |u| ensures u[i].id != u[j].id {
      assert u[j] == t[j - 1];
      if i > 0 {
        assert u[i] == t[i - 1];
      }
    }
  }

  /** Whatever a filter keeps comes from the filtered list. */
  lemma FilteredEntryFromList(xs: seq<ImageFile>, keep: ImageFile -> bool, x: ImageFile)
    requires x in Filter(xs, keep)
    ensures exists m :: 0 <= m < |xs| && xs[m] == x
  {
    assert multiset(Filter(xs, keep))[x] > 0;
    assert x in xs;
  }

  /** An entry that survives a removal was staged before and does not carry the id. */
  lemma KeptEntry(s: Staging, id: string, f: ImageFile)
    requires f in RemoveFile(s, id).staging.files
    ensures f in s.files && f.id != id
  {
    var kept := RemoveFile(s, id).staging.files;
    assert multiset(kept)[f] > 0;
  }

  /** With unique ids, the entry holding `id` is the first one, so its preview is the one
      revoked. */
  lemma RemoveReleasesTheRemoved(s: Staging, id: string)
    requires UniqueIds(s.files)
    ensures var r := RemoveFile(s, id);
            forall i :: 0 <= i < |s.files| && s.files[i].id == id ==>
              r.released == Some(s.files[i].preview) && r.staging.live == s.live - {s.files[i].preview}
  {
    var r := RemoveFile(s, id);
    forall i | 0 <= i < |s.files| && s.files[i].id == id
      ensures r.released == Some(s.files[i].preview) && r.staging.live == s.live - {s.files[i].preview}
    {
      var k :| && 0 <= k < |s.files|
               && s.files[k].id == id
               && r.released == Some(s.files[k].preview)
               && r.staging.live == s.live - {s.files[k].preview};
    }
  }

  /** Entries drawn from a list with pairwise distinct previews, with unique ids among
      themselves, also have pairwise distinct previews. */
  lemma DistinctPreviewsOfDrawn(files: seq<ImageFile>, kept: seq<ImageFile>)
    requires forall i, j :: 0 <= i < j < |files| ==> files[i].preview != files[j].preview
    requires UniqueIds(kept)
    requires forall i :: 0 <= i < |kept| ==> kept[i] in files
    ensures forall i, j :: 0 <= i < j < |kept| ==> kept[i].preview != kept[j].preview
  {
    forall i, j | 0 <= i < j < |kept| ensures kept[i].preview != kept[j].preview {
      var ma :| 0 <= ma < |files| && files[ma] == kept[i];
      var mb :| 0 <= mb < |files| && files[mb] == kept[j];
      assert ma < mb || mb < ma;
    }
  }

  lemma RemoveKeepsPreviewsDistinct(s: Staging, id: string)
    requires WellFormed(s)
    ensures var kept := RemoveFile(s, id).staging.files;
            forall i, j :: 0 <= i < j < |kept| ==> kept[i].preview != kept[j].preview
  {
    var kept := RemoveFile(s, id).staging.files;
    FilterKeepsIdsUnique(s.files, id);
    forall i | 0 <= i < |kept| ensures kept[i] in s.files {
      KeptEntry(s, id, kept[i]);
    }
    DistinctPreviewsOfDrawn(s.files, kept);
  }

  /** The preview of the entry at `k` is the preview of no other entry. */
  lemma PreviewOfOnlyOne(s: Staging, k: int, f: ImageFile)
    requires WellFormed(s)
    requires 0 <= k < |s.files|
    requires f in s.files && f.id != s.files[k].id
    ensures f.preview != s.files[k].preview
  {
    var m :| 0 <= m < |s.files| && s.files[m] == f;
    assert m < k || k < m;
  }

  lemma RemoveKeepsPreviewsLive(s: Staging, id: string)
    requires WellFormed(s)
    ensures var r := RemoveFile(s, id);
            forall i :: 0 <= i < |r.staging.files| ==> r.staging.files[i].preview in r.staging.live
  {
    var kept := RemoveFile(s, id).staging.files;
    forall i | 0 <= i < |kept| ensures kept[i].preview in RemoveFile(s, id).staging.live {
      KeptPreviewLive(s, id, kept[i]);
    }
  }

  /** An entry that survives a removal keeps a live preview. */
  lemma KeptPreviewLive(s: Staging, id: string, f: ImageFile)
    requires WellFormed(s)
    requires f in RemoveFile(s, id).staging.files
    ensures f.preview in RemoveFile(s, id).staging.live
  {
    KeptEntry(s, id, f);
    RemoveReleasesTheRemoved(s, id);
    if HasId(s.files, id) {
      var k :| 0 <= k < |s.files| && s.files[k].id == id;
      PreviewOfOnlyOne(s, k, f);
    }
  }

  /** On a well-formed staging, a removal keeps the staging well formed and leaks nothing:
      the entry that goes is the one whose preview is revoked, and only that URL stops
      being live. */
  lemma RemovePreservesWellFormed(s: Staging, id: string)
    requires WellFormed(s)
    ensures var r := RemoveFile(s, id);
            && WellFormed(r.staging)
            && (forall i :: 0 <= i < |s.files| && s.files[i].id == id ==>
                  r.released == Some(s.files[i].preview) && s.files[i].preview !in r.staging.live)
  {
    FilterKeepsIdsUnique(s.files, id);
    RemoveReleasesTheRemoved(s, id);
    RemoveKeepsPreviewsDistinct(s, id);
    RemoveKeepsPreviewsLive(s, id);
  }
}

=== FILE: multiselect.dfy ===
/** The add-or-remove toggle that both flows apply to their multi-select fields
    (`handleMultiSelectChange`): a value already in the list is filtered out, every copy of
    it; a value not in the list is appended at the end. */
module MultiSelect {
  import opened Text

  predicate NoDuplicates(xs: seq<string>)
  {
    forall i, j :: 0 <= i < j < |xs| ==> xs[i] != xs[j]
  }

  /** A list is duplicate-free exactly when no value occurs in it more than once. */
  lemma {:induction false} NoDuplicatesCounts(xs: seq<string>)
    ensures NoDuplicates(xs) <==> forall x :: multiset(xs)[x] <= 1
    decreases |xs|
  {
    if |xs| > 0 {
      var t := xs[1..];
      NoDuplicatesCounts(t);
      assert xs == [xs[0]] + t;
      assert forall x :: multiset(xs)[x] == multiset(t)[x] + (if x == xs[0] then 1 else 0);
      if NoDuplicates(xs) {
        assert NoDuplicates(t) by {
          forall i, j | 0 <= i < j < |t| ensures t[i] != t[j] {
            assert t[i] == xs[i + 1] && t[j] == xs[j + 1];
          }
        }
      }
      if forall x :: multiset(xs)[x] <= 1 {
        assert multiset(t)[xs[0]] == 0;
        assert forall x :: multiset(t)[x] <= 1 by {
          forall x ensures multiset(t)[x] <= 1 {
            assert multiset(xs)[x] <= 1;
          }
        }
        forall i, j | 0 <= i < j < |xs| ensures xs[i] != xs[j] {
          if i == 0 {
            assert xs[j] == t[j - 1];
          } else {
            assert xs[i] == t[i - 1] && xs[j] == t[j - 1];
          }
        }
      }
    }
  }

  /** The toggled list. */
  function Toggle(xs: seq<string>, v: string): (r: seq<string>)
    ensures v in r <==> v !in xs
    ensures forall x :: x != v ==> (x in r <==> x in xs)
    ensures v !in xs ==> r == xs + [v]
    ensures v in xs ==> IsSubsequence(r, xs) && multiset(r) == multiset(xs)[v := 0]
  {
    if v in xs then
      var r := Filter(xs, (c: string) => c != v);
      assert multiset(r) == multiset(xs)[v := 0];
      r
    else xs + [v]
  }

  /** Toggling an absent value twice restores the list exactly. */
  lemma ToggleTwiceAbsent(xs: seq<string>, v: string)
    requires v !in xs
    ensures Toggle(Toggle(xs, v), v) == xs
  {
    var keep := (c: string) => c != v;
    FilterConcat(xs, [v], keep);
    FilterKeepsAll(xs, keep);
  }

  /** Toggling a present value twice in a duplicate-free list restores its contents, but the
      value moves to the end. */
  lemma ToggleTwicePresent(xs: seq<string>, v: string)
    requires NoDuplicates(xs)
    requires v in xs
    ensures var r := Toggle(Toggle(xs, v), v);
            && multiset(r) == multiset(xs)
            && r[|r| - 1] == v
            && r[..|r| - 1] == Filter(xs, (c: string) => c != v)
  {
    NoDuplicatesCounts(xs);
    var once := Toggle(xs, v);
    var r := Toggle(once, v);
    assert r == once + [v];
    assert multiset(xs)[v] == 1;
    assert multiset(r) == multiset(xs)[v := 0] + multiset{v};
  }

  /** Toggling keeps a duplicate-free list duplicate-free. */
  lemma TogglePreservesNoDuplicates(xs: seq<string>, v: string)
    requires NoDuplicates(xs)
    ensures NoDuplicates(Toggle(xs, v))
  {
    NoDuplicatesCounts(xs);
    var r := Toggle(xs, v);
    if v !in xs {
      assert multiset(r) == multiset(xs) + multiset{v};
    }
    NoDuplicatesCounts(r);
  }
}

=== FILE: recipecard.dfy ===
/** What a recipe card shows (components/RecipeCard.tsx): the recipe's name, description and
    cooking time, its ingredients and instructions as keyed lists, and, only when something
    is missing, a grocery list with two delivery search links. `encodeURIComponent` is a
    parameter of the rendering. */
module RecipeCard {
  import opened Wrappers
  import opened Types
  import opened Text

  /** One list element and the key it is rendered with. */
  datatype ListItem = ListItem(key: nat, text: string)

  /** The grocery block: the missing items and the two search links. */
  datatype GroceryBlock = GroceryBlock(items: seq<ListItem>, swiggyHref: string, blinkitHref: string)

  datatype CardView = CardView(
    title: string,
    description: string,
    timeText: string,
    ingredients: seq<ListItem>,
    instructions: seq<ListItem>,
    grocery: Option<GroceryBlock>)

  const SwiggySearch := "https://www.swiggy.com/instamart/search?query="
  const BlinkitSearch := "https://blinkit.com/search?q="

  /** The texts of a rendered list, top to bottom. */
  function Texts(items: seq<ListItem>): (r: seq<string>)
    ensures |r| == |items|
    ensures forall i :: 0 <= i < |items| ==> r[i] == items[i].text
  {
    seq(|items|, i requires 0 <= i < |items| => items[i].text)
  }

  /** `xs.map((x, i) => <li key={i}>{x}</li>)`: every entry shown once, in order, under a key
      that no other element of the list shares. */
  function RenderList(xs: seq<string>): (r: seq<ListItem>)
    ensures Texts(r) == xs
    ensures forall i, j :: 0 <= i < j < |r| ==> r[i].key != r[j].key
    ensures forall i :: 0 <= i < |r| ==> r[i].key < |xs|
  {
    seq(|xs|, i requires 0 <= i < |xs| => ListItem(i, xs[i]))
  }

  /** The Swiggy Instamart link: the items joined with commas, encoded. */
  function SwiggyHref(items: seq<string>, encode: string -> string): string
  {
    SwiggySearch + encode(Join(items, ","))
  }

  /** The Blinkit link: the items joined with spaces, encoded. */
  function BlinkitHref(items: seq<string>, encode: string -> string): string
  {
    BlinkitSearch + encode(Join(items, " "))
  }

  /** The card for one recipe. */
  function Card(recipe: Recipe, encode: string -> string): (r: CardView)
    ensures r.title == recipe.recipeName && r.description == recipe.description
    ensures r.timeText == IntToString(recipe.cookingTime) + " minutes"
    ensures Texts(r.ingredients) == recipe.ingredients
    ensures Texts(r.instructions) == recipe.instructions
    ensures r.grocery.Some? <==> |recipe.missingItems| > 0
    ensures r.grocery.Some? ==>
              && Texts(r.grocery.value.items) == recipe.missingItems
              && r.grocery.value.swiggyHref == SwiggySearch + encode(Join(recipe.missingItems, ","))
              && r.grocery.value.blinkitHref == BlinkitSearch + encode(Join(recipe.missingItems, " "))
  {
    var grocery :=
      if |recipe.missingItems| > 0 then
        var items := recipe.missingItems;
        Some(GroceryBlock(RenderList(items), SwiggyHref(items, encode), BlinkitHref(items, encode)))
      else None;
    CardView(recipe.recipeName, recipe.description, IntToString(recipe.cookingTime) + " minutes",
             RenderList(recipe.ingredients), RenderList(recipe.instructions), grocery)
  }

  /** Reading a Swiggy link back: strip the search prefix, decode, split at commas. */
  function SwiggyItems(href: string, decode: string -> string): (r: Option<seq<string>>)
    ensures r.Some? <==> |SwiggySearch| <= |href| && href[..|SwiggySearch|] == SwiggySearch
  {
    if |SwiggySearch| <= |href| && href[..|SwiggySearch|] == SwiggySearch then
      Some(Split(decode(href[|SwiggySearch|..]), ','))
    else None
  }

  /** The Swiggy link determines the grocery list: with a decoder that undoes the encoder,
      reading the link back gives exactly the missing items, provided none of them contains
      a comma. */
  lemma SwiggyLinkRoundTrip(items: seq<string>, encode: string -> string, decode: string -> string)
    requires forall s :: decode(encode(s)) == s
    requires |items| > 0
    requires forall i :: 0 <= i < |items| ==> ',' !in items[i]
    ensures SwiggyItems(SwiggyHref(items, encode), decode) == Some(items)
  {
    var href := SwiggyHref(items, encode);
    var query := encode(Join(items, ","));
    assert href[..|SwiggySearch|] == SwiggySearch;
    assert href[|SwiggySearch|..] == query;
    assert decode(query) == Join(items, [',']);
    SplitJoin(items, ',');
  }

  /** A card's Swiggy link reads back as exactly the recipe's missing items, when none of them
      contains a comma and the decoder undoes the encoder. */
  lemma CardSwiggyRoundTrip(recipe: Recipe, encode: string -> string, decode: string -> string)
    requires forall s :: decode(encode(s)) == s
    requires |recipe.missingItems| > 0
    requires forall i :: 0 <= i < |recipe.missingItems| ==> ',' !in recipe.missingItems[i]
    ensures Card(recipe, encode).grocery.Some?
    ensures SwiggyItems(Card(recipe, encode).grocery.value.swiggyHref, decode) == Some(recipe.missingItems)
  {
    SwiggyLinkRoundTrip(recipe.missingItems, encode, decode);
  }

  /** An item containing a comma gives the link of two items, so the comma-free condition
      above cannot be dropped. */
  lemma SwiggyCommaInItem(encode: string -> string)
    ensures SwiggyHref(["salt,pepper"], encode) == SwiggyHref(["salt", "pepper"], encode)
  {
    var two := ["salt", "pepper"];
    assert two[1..] == ["pepper"];
    assert Join(two, ",") == "salt" + "," + "pepper";
    assert "salt" + "," + "pepper" == "salt,pepper";
  }

  /** The Blinkit link loses the item boundaries: one item with a space and two items give
      the same link. */
  lemma BlinkitLinkAmbiguous(encode: string -> string)
    ensures BlinkitHref(["olive oil"], encode) == BlinkitHref(["olive", "oil"], encode)
  {
    var two := ["olive", "oil"];
    assert two[1..] == ["oil"];
    assert Join(two, " ") == "olive" + " " + "oil";
    assert "olive" + " " + "oil" == "olive oil";
  }
}

=== FILE: recipegenerator.dfy ===
/** The three-step recipe flow (components/RecipeGenerator.tsx) as a state machine: a state
    holds the step, the form, the recipes, the loading flag and the error; every handler of
    the component is an action, and what the screen offers decides which actions are enabled.
    The browser's table of live preview URLs travels with the state. */
module RecipeGenerator {
  import opened Wrappers
  import opened Types
  import opened Text
  import opened MultiSelect
  import ImageUploader
  import opened GeminiService

  /** The form a fresh flow starts from. */
  const InitialForm := FormData([], [], [], [], [], "", [], "", [], "Comfort Food", 30, 2, "Dinner", "Any")

  // ---------------------------------------------------------------------------
  // Form fields

  /** The three multi-select fields. */
  datatype MultiField = DietaryChoices | Spices | Allergies

  function FieldValues(f: FormData, field: MultiField): seq<string>
  {
    match field
    case DietaryChoices => f.dietaryChoices
    case Spices => f.spices
    case Allergies => f.allergies
  }

  /** `handleMultiSelectChange(field, value)`: the field is toggled and nothing else moves. */
  function ToggleField(f: FormData, field: MultiField, v: string): (r: FormData)
    ensures FieldValues(r, field) == Toggle(FieldValues(f, field), v)
    ensures forall other :: other != field ==> FieldValues(r, other) == FieldValues(f, other)
    ensures r.(spices := f.spices, allergies := f.allergies, dietaryChoices := f.dietaryChoices) == f
  {
    match field
    case DietaryChoices => f.(dietaryChoices := Toggle(f.dietaryChoices, v))
    case Spices => f.(spices := Toggle(f.spices, v))
    case Allergies => f.(allergies := Toggle(f.allergies, v))
  }

  /** The four image categories of step 1. */
  datatype Category = Vegetables | Fruits | Proteins | Greens

  function CategoryFiles(f: FormData, c: Category): seq<ImageFile>
  {
    match c
    case Vegetables => f.vegetables
    case Fruits => f.fruits
    case Proteins => f.proteins
    case Greens => f.greens
  }

  /** `setFiles` of one uploader: that category's list is replaced and nothing else moves. */
  function WithCategory(f: FormData, c: Category, files: seq<ImageFile>): (r: FormData)
    ensures CategoryFiles(r, c) == files
    ensures forall d :: d != c ==> CategoryFiles(r, d) == CategoryFiles(f, d)
    ensures r.(vegetables := f.vegetables, fruits := f.fruits, proteins := f.proteins,
               greens := f.greens) == f
  {
    match c
    case Vegetables => f.(vegetables := files)
    case Fruits => f.(fruits := files)
    case Proteins => f.(proteins := files)
    case Greens => f.(greens := files)
  }

  /** The single-value inputs; each lives on one step. */
  datatype Edit =
    | OtherSpices(text: string)
    | OtherAllergies(text: string)
    | Cuisine(text: string)
    | Mood(text: string)
    | MealType(text: string)
    | Servings(n: int)
    | CookingTime(n: int)

  /** The step whose screen shows the input. */
  function EditStep(e: Edit): int
  {
    match e
    case OtherSpices(_) => 2
    case OtherAllergies(_) => 2
    case Cuisine(_) => 2
    case Mood(_) => 2
    case MealType(_) => 3
    case Servings(_) => 3
    case CookingTime(_) => 3
  }

  /** An input's `onChange`: its own field takes the typed value and nothing else moves. */
  function ApplyEdit(f: FormData, e: Edit): (r: FormData)
    ensures e.OtherSpices? ==> r.otherSpices == e.text && r.(otherSpices := f.otherSpices) == f
    ensures e.OtherAllergies? ==> r.otherAllergies == e.text && r.(otherAllergies := f.otherAllergies) == f
    ensures e.Cuisine? ==> r.cuisine == e.text && r.(cuisine := f.cuisine) == f
    ensures e.Mood? ==> r.mood == e.text && r.(mood := f.mood) == f
    ensures e.MealType? ==> r.mealType == e.text && r.(mealType := f.mealType) == f
    ensures e.Servings? ==> r.servings == e.n && r.(servings := f.servings) == f
    ensures e.CookingTime? ==> r.cookingTime == e.n && r.(cookingTime := f.cookingTime) == f
  {
    match e
    case OtherSpices(t) => f.(otherSpices := t)
    case OtherAllergies(t) => f.(otherAllergies := t)
    case Cuisine(t) => f.(cuisine := t)
    case Mood(t) => f.(mood := t)
    case MealType(t) => f.(mealType := t)
    case Servings(n) => f.(servings := n)
    case CookingTime(n) => f.(cookingTime := n)
  }

  /** An edit never touches the staged images or the multi-select fields. */
  lemma EditKeepsImagesAndChoices(f: FormData, e: Edit)
    ensures forall c :: CategoryFiles(ApplyEdit(f, e), c) == CategoryFiles(f, c)
    ensures forall field :: FieldValues(ApplyEdit(f, e), field) == FieldValues(f, field)
  {
  }

  // ---------------------------------------------------------------------------
  // States and actions

  datatype State = State(
    step: int,
    form: FormData,
    recipes: seq<Recipe>,
    loading: bool,
    error: Option<string>,
    live: set<string>)

  /** A fresh flow on a page where no preview URL is live yet. */
  const Initial := State(1, InitialForm, [], false, None, {})

  datatype Action =
    | Next
    | Back
    | ToggleChoice(field: MultiField, value: string)
    | EditField(edit: Edit)
    | AddImages(category: Category, picked: Option<seq<ImageUploader.Pick>>)
    | RemoveImage(category: Category, id: string)
    | Generate
    | Finish(outcome: Outcome<seq<Recipe>>)
    | Reset

  /** What each handler does to the state. `Generate` is the synchronous start of
      `handleSubmit`; `Finish` is its completion with the service's outcome. */
  function Step(s: State, a: Action): (r: State)
    ensures a.Next? ==> r == s.(step := s.step + 1)
    ensures a.Back? ==> r == s.(step := s.step - 1)
    ensures !(a.ToggleChoice? || a.EditField? || a.AddImages? || a.RemoveImage? || a.Reset?) ==>
              r.form == s.form
    ensures !(a.AddImages? || a.RemoveImage?) ==> r.live == s.live
    ensures !(a.Generate? || a.Finish? || a.Reset?) ==> r.recipes == s.recipes && r.error == s.error
    ensures !(a.Next? || a.Back? || a.Finish? || a.Reset?) ==> r.step == s.step
    ensures a.Generate? ==> r.loading && r.error.None? && r.recipes == []
    ensures a.Finish? ==> !r.loading
    ensures a.Finish? && a.outcome.Ok? ==> r.recipes == a.outcome.value && r.step == 4 && r.error == s.error
    ensures a.Finish? && a.outcome.Fail? ==>
              r.recipes == s.recipes && r.step == s.step && r.error == Some(ErrorText(a.outcome.message))
    ensures a.Reset? ==> r == Initial.(live := s.live)
    ensures a.ToggleChoice? || a.EditField? || a.AddImages? || a.RemoveImage? ==>
              r.loading == s.loading
  {
    match a
    case Next => s.(step := s.step + 1)
    case Back => s.(step := s.step - 1)
    case ToggleChoice(field, v) => s.(form := ToggleField(s.form, field, v))
    case EditField(e) => s.(form := ApplyEdit(s.form, e))
    case AddImages(c, picked) => AddedTo(s, c, picked)
    case RemoveImage(c, id) => RemovedFrom(s, c, id)
    case Generate => s.(loading := true, error := None, recipes := [])
    case Finish(Ok(rs)) => s.(recipes := rs, step := 4, loading := false)
    case Finish(Fail(m)) => s.(error := Some(ErrorText(m)), loading := false)
    case Reset => State(1, InitialForm, [], false, None, s.live)
  }

  /** One uploader's `handleFileChange`, with its `setFiles` and the URLs it created. */
  function AddedTo(s: State, c: Category, picked: Option<seq<ImageUploader.Pick>>): State
  {
    var st := ImageUploader.AddFiles(ImageUploader.Staging(CategoryFiles(s.form, c), s.live), picked);
    s.(form := WithCategory(s.form, c, st.files), live := st.live)
  }

  /** One uploader's `removeFile`, with its `setFiles` and the URL it revoked. */
  function RemovedFrom(s: State, c: Category, id: string): State
  {
    var rm := ImageUploader.RemoveFile(ImageUploader.Staging(CategoryFiles(s.form, c), s.live), id);
    s.(form := WithCategory(s.form, c, rm.staging.files), live := rm.staging.live)
  }

  /** What the component renders, by precedence: the loading screen, the error screen (for a
      non-empty error), or the current step. */
  datatype Screen = LoadingScreen | ErrorScreen(message: string) | StepScreen(step: int)

  function View(s: State): (r: Screen)
    ensures r.LoadingScreen? <==> s.loading
    ensures r.ErrorScreen? <==> !s.loading && s.error.Some? && s.error.value != ""
    ensures r.ErrorScreen? ==> r.message == s.error.value
    ensures r.StepScreen? ==> r.step == s.step
  {
    if s.loading then LoadingScreen
    else if s.error.Some? && s.error.value != "" then ErrorScreen(s.error.value)
    else StepScreen(s.step)
  }

  /** Which actions the screen offers. While loading only the pending call can complete; the
      error screen offers only "Start Over"; a step screen offers its own inputs and buttons.
      Picks must be fresh and a removal names a staged image. */
  predicate Enabled(s: State, a: Action)
  {
    match View(s)
    case LoadingScreen => a.Finish?
    case ErrorScreen(_) => a.Reset?
    case StepScreen(n) =>
      match a
      case Next => n < 3
      case Back => 1 < n < 4
      case ToggleChoice(_, _) => n == 2
      case EditField(e) => n == EditStep(e)
      case AddImages(c, picked) =>
        && n == 1
        && (picked.Some? ==>
              ImageUploader.FreshPicks(ImageUploader.Staging(CategoryFiles(s.form, c), s.live), picked.value))
      case RemoveImage(c, id) => n == 1 && ImageUploader.HasId(CategoryFiles(s.form, c), id)
      case Generate => n == 3
      case Finish(_) => false
      case Reset => n == 4
  }

  /** The buttons under a step: "Back" on steps 2 and 3, "Next" on steps 1 and 2, "Generate
      Recipes!" on step 3 and "Create a New Meal" on step 4, so each step offers exactly one
      way forward. */
  lemma StepButtons(s: State)
    requires View(s).StepScreen? && 1 <= s.step <= 4
    ensures Enabled(s, Back) <==> s.step == 2 || s.step == 3
    ensures Enabled(s, Next) <==> s.step < 3
    ensures Enabled(s, Generate) <==> s.step == 3
    ensures Enabled(s, Reset) <==> s.step == 4
    ensures (if Enabled(s, Next) then 1 else 0) + (if Enabled(s, Generate) then 1 else 0)
              + (if Enabled(s, Reset) then 1 else 0) == 1
    ensures forall o :: !Enabled(s, Finish(o))
  {
  }

  /** The error screen offers nothing but starting over. */
  lemma ErrorScreenOnlyResets(s: State, a: Action)
    requires View(s).ErrorScreen?
    requires Enabled(s, a)
    ensures a == Reset
  {
  }

  /** While the request is pending, only its completion can happen. */
  lemma LoadingOnlyFinishes(s: State)
    requires View(s) == LoadingScreen
    ensures forall a :: Enabled(s, a) <==> a.Finish?
  {
  }

  function Run(s: State, actions: seq<Action>): State
    decreases |actions|
  {
    if |actions| == 0 then s else Run(Step(s, actions[0]), actions[1..])
  }

  /** Every action of the sequence is enabled in the state it is applied to. */
  predicate EnabledRun(s: State, actions: seq<Action>)
    decreases |actions|
  {
    |actions| == 0 || (Enabled(s, actions[0]) && EnabledRun(Step(s, actions[0]), actions[1..]))
  }

  // ---------------------------------------------------------------------------
  // Invariant

  /** Staged images are well formed category by category, and no two categories share a
      preview URL. */
  predicate ImagesWellFormed(f: FormData, live: set<string>)
  {
    && (forall c :: ImageUploader.WellFormed(ImageUploader.Staging(CategoryFiles(f, c), live)))
    && (forall c, d, i, j ::
          c != d && 0 <= i < |CategoryFiles(f, c)| && 0 <= j < |CategoryFiles(f, d)| ==>
            CategoryFiles(f, c)[i].preview != CategoryFiles(f, d)[j].preview)
  }

  /** The steps run from 1 to 4; loading happens only on step 3 with the error cleared and no
      recipes; an error is non-empty and arises only on step 3; recipes exist only on step 4;
      no multi-select field holds a value twice; the staged images are well formed. */
  predicate Inv(s: State)
  {
    && 1 <= s.step <= 4
    && (s.loading ==> s.step == 3 && s.error.None? && s.recipes == [])
    && (s.error.Some? ==> s.error.value != "" && s.step == 3)
    && (s.step < 4 ==> s.recipes == [])
    && (forall field :: NoDuplicates(FieldValues(s.form, field)))
    && ImagesWellFormed(s.form, s.live)
  }

  lemma InitialInv()
    ensures Inv(Initial)
    ensures View(Initial) == StepScreen(1)
  {
    assert forall field :: FieldValues(InitialForm, field) == [];
    assert forall c :: CategoryFiles(InitialForm, c) == [];
  }

  /** A staging stays well formed when more URLs become live. */
  lemma WellFormedUnderMoreLive(files: seq<ImageFile>, live: set<string>, more: set<string>)
    requires ImageUploader.WellFormed(ImageUploader.Staging(files, live))
    requires live <= more
    ensures ImageUploader.WellFormed(ImageUploader.Staging(files, more))
  {
  }

  lemma AddKeepsImagesWellFormed(f: FormData, live: set<string>, c: Category, picks: seq<ImageUploader.Pick>)
    requires ImagesWellFormed(f, live)
    requires ImageUploader.FreshPicks(ImageUploader.Staging(CategoryFiles(f, c), live), picks)
    ensures var st := ImageUploader.AddFiles(ImageUploader.Staging(CategoryFiles(f, c), live), Some(picks));
            ImagesWellFormed(WithCategory(f, c, st.files), st.live)
  {
    var before := CategoryFiles(f, c);
    var st := ImageUploader.AddFiles(ImageUploader.Staging(before, live), Some(picks));
    var g := WithCategory(f, c, st.files);
    ImageUploader.AddPreservesWellFormed(ImageUploader.Staging(before, live), picks);
    forall d ensures ImageUploader.WellFormed(ImageUploader.Staging(CategoryFiles(g, d), st.live)) {
      if d != c {
        WellFormedUnderMoreLive(CategoryFiles(f, d), live, st.live);
      }
    }
    forall d, e, i, j | d != e && 0 <= i < |CategoryFiles(g, d)| && 0 <= j < |CategoryFiles(g, e)|
      ensures CategoryFiles(g, d)[i].preview != CategoryFiles(g, e)[j].preview
    {
      if d == c {
        NewOrOldApart(f, live, c, picks, e, i, j);
      } else if e == c {
        NewOrOldApart(f, live, c, picks, d, j, i);
      }
    }
  }

  /** An entry of the grown category and an entry of another category have different
      previews: old entries by the invariant, new ones because their URL was not live. */
  lemma NewOrOldApart(f: FormData, live: set<string>, c: Category, picks: seq<ImageUploader.Pick>,
                      e: Category, i: int, j: int)
    requires ImagesWellFormed(f, live)
    requires ImageUploader.FreshPicks(ImageUploader.Staging(CategoryFiles(f, c), live), picks)
    requires e != c
    requires 0 <= i < |CategoryFiles(f, c)| + |picks|
    requires 0 <= j < |CategoryFiles(f, e)|
    ensures var st := ImageUploader.AddFiles(ImageUploader.Staging(CategoryFiles(f, c), live), Some(picks));
            st.files[i].preview != CategoryFiles(f, e)[j].preview
  {
    var n := |CategoryFiles(f, c)|;
    var st := ImageUploader.AddFiles(ImageUploader.Staging(CategoryFiles(f, c), live), Some(picks));
    assert ImageUploader.WellFormed(ImageUploader.Staging(CategoryFiles(f, e), live));
    if i < n {
      assert st.files[i] == CategoryFiles(f, c)[i];
    } else {
      assert st.files[i] == ImageUploader.NewEntry(picks[i - n]);
      assert CategoryFiles(f, e)[j].preview in live;
    }
  }

  lemma RemoveKeepsImagesWellFormed(f: FormData, live: set<string>, c: Category, id: string)
    requires ImagesWellFormed(f, live)
    ensures var rm := ImageUploader.RemoveFile(ImageUploader.Staging(CategoryFiles(f, c), live), id);
            ImagesWellFormed(WithCategory(f, c, rm.staging.files), rm.staging.live)
  {
    var files := CategoryFiles(f, c);
    var s := ImageUploader.Staging(files, live);
    var rm := ImageUploader.RemoveFile(s, id);
    var g := WithCategory(f, c, rm.staging.files);
    ImageUploader.RemovePreservesWellFormed(s, id);
    forall d | d != c
      ensures ImageUploader.WellFormed(ImageUploader.Staging(CategoryFiles(g, d), rm.staging.live))
    {
      OtherCategoryStaysLive(f, live, c, id, d);
    }
    RemoveKeepsCategoriesApart(f, live, c, id);
  }

  /** After a removal, previews of different categories are still apart. */
  lemma RemoveKeepsCategoriesApart(f: FormData, live: set<string>, c: Category, id: string)
    requires ImagesWellFormed(f, live)
    ensures var rm := ImageUploader.RemoveFile(ImageUploader.Staging(CategoryFiles(f, c), live), id);
            var g := WithCategory(f, c, rm.staging.files);
            forall d, e, i, j :: d != e && 0 <= i < |CategoryFiles(g, d)| && 0 <= j < |CategoryFiles(g, e)| ==>
              CategoryFiles(g, d)[i].preview != CategoryFiles(g, e)[j].preview
  {
    var s := ImageUploader.Staging(CategoryFiles(f, c), live);
    var g := WithCategory(f, c, ImageUploader.RemoveFile(s, id).staging.files);
    forall d, e, i, j | d != e && 0 <= i < |CategoryFiles(g, d)| && 0 <= j < |CategoryFiles(g, e)|
      ensures CategoryFiles(g, d)[i].preview != CategoryFiles(g, e)[j].preview
    {
      if d == c {
        ImageUploader.KeptEntry(s, id, CategoryFiles(g, d)[i]);
      } else if e == c {
        ImageUploader.KeptEntry(s, id, CategoryFiles(g, e)[j]);
      }
    }
  }

  /** Removing from one category revokes a preview no other category holds. */
  lemma OtherCategoryStaysLive(f: FormData, live: set<string>, c: Category, id: string, d: Category)
    requires ImagesWellFormed(f, live)
    requires d != c
    ensures var rm := ImageUploader.RemoveFile(ImageUploader.Staging(CategoryFiles(f, c), live), id);
            ImageUploader.WellFormed(ImageUploader.Staging(CategoryFiles(f, d), rm.staging.live))
  {
    var s := ImageUploader.Staging(CategoryFiles(f, c), live);
    var rm := ImageUploader.RemoveFile(s, id);
    assert ImageUploader.WellFormed(ImageUploader.Staging(CategoryFiles(f, d), live));
    if ImageUploader.HasId(s.files, id) {
      var k :| && 0 <= k < |s.files|
               && s.files[k].id == id
               && rm.released == Some(s.files[k].preview)
               && rm.staging.live == s.live - {s.files[k].preview};
      forall j | 0 <= j < |CategoryFiles(f, d)|
        ensures CategoryFiles(f, d)[j].preview in rm.staging.live
      {
        assert CategoryFiles(f, c)[k].preview != CategoryFiles(f, d)[j].preview;
      }
    }
  }

  lemma ToggleKeepsInv(s: State, field: MultiField, v: string)
    requires Inv(s)
    ensures Inv(Step(s, ToggleChoice(field, v)))
  {
    ToggleKeepsChoicesDistinct(s.form, field, v);
    SameImagesWellFormed(s.form, ToggleField(s.form, field, v), s.live);
  }

  lemma ToggleKeepsChoicesDistinct(f: FormData, field: MultiField, v: string)
    requires forall other :: NoDuplicates(FieldValues(f, other))
    ensures forall other :: NoDuplicates(FieldValues(ToggleField(f, field, v), other))
  {
    TogglePreservesNoDuplicates(FieldValues(f, field), v);
  }

  /** The images' well-formedness depends on the staged lists and the live previews only. */
  lemma SameImagesWellFormed(f: FormData, g: FormData, live: set<string>)
    requires ImagesWellFormed(f, live)
    requires f.vegetables == g.vegetables && f.fruits == g.fruits
    requires f.proteins == g.proteins && f.greens == g.greens
    ensures ImagesWellFormed(g, live)
  {
    assert forall c :: CategoryFiles(g, c) == CategoryFiles(f, c);
  }

  lemma EditKeepsInv(s: State, e: Edit)
    requires Inv(s)
    ensures Inv(Step(s, EditField(e)))
  {
    EditKeepsImagesAndChoices(s.form, e);
  }

  lemma AddImagesKeepsInv(s: State, c: Category, picked: Option<seq<ImageUploader.Pick>>)
    requires Inv(s)
    requires Enabled(s, AddImages(c, picked))
    ensures Inv(Step(s, AddImages(c, picked)))
  {
    var r := Step(s, AddImages(c, picked));
    assert forall field :: FieldValues(r.form, field) == FieldValues(s.form, field);
    if picked.Some? {
      AddKeepsImagesWellFormed(s.form, s.live, c, picked.value);
    } else {
      assert forall d :: CategoryFiles(r.form, d) == CategoryFiles(s.form, d);
    }
  }

  lemma RemoveImageKeepsInv(s: State, c: Category, id: string)
    requires Inv(s)
    ensures Inv(Step(s, RemoveImage(c, id)))
  {
    RemovedStateInv(s, c, id);
  }

  lemma RemovedStateInv(s: State, c: Category, id: string)
    requires Inv(s)
    ensures Inv(RemovedFrom(s, c, id))
  {
    var rm := ImageUploader.RemoveFile(ImageUploader.Staging(CategoryFiles(s.form, c), s.live), id);
    RemoveKeepsImagesWellFormed(s.form, s.live, c, id);
    ImagesChangeKeepsInv(s, WithCategory(s.form, c, rm.staging.files), rm.staging.live);
  }

  /** Replacing the staged images and the live set by well-formed ones, with the choices left
      alone, keeps the invariant. */
  lemma ImagesChangeKeepsInv(s: State, g: FormData, live: set<string>)
    requires Inv(s)
    requires ImagesWellFormed(g, live)
    requires g.spices == s.form.spices && g.allergies == s.form.allergies
    requires g.dietaryChoices == s.form.dietaryChoices
    ensures Inv(s.(form := g, live := live))
  {
    assert forall field :: FieldValues(g, field) == FieldValues(s.form, field);
  }

  lemma ResetKeepsInv(s: State)
    ensures Inv(Step(s, Reset))
  {
    assert forall field :: FieldValues(InitialForm, field) == [];
    assert forall c :: CategoryFiles(InitialForm, c) == [];
  }

  /** Every enabled action keeps the invariant. */
  lemma StepKeepsInv(s: State, a: Action)
    requires Inv(s)
    requires Enabled(s, a)
    ensures Inv(Step(s, a))
  {
    match a
    case ToggleChoice(field, v) => ToggleKeepsInv(s, field, v);
    case EditField(e) => EditKeepsInv(s, e);
    case AddImages(c, picked) => AddImagesKeepsInv(s, c, picked);
    case RemoveImage(c, id) => RemoveImageKeepsInv(s, c, id);
    case Reset => ResetKeepsInv(s);
    case _ =>
  }

  lemma {:induction false} RunKeepsInv(s: State, actions: seq<Action>)
    requires Inv(s)
    requires EnabledRun(s, actions)
    ensures Inv(Run(s, actions))
    decreases |actions|
  {
    if |actions| > 0 {
      StepKeepsInv(s, actions[0]);
      RunKeepsInv(Step(s, actions[0]), actions[1..]);
    }
  }

  /** Whatever the user does, the flow stays on steps 1 to 4, never loads outside step 3 and
      never shows a duplicate choice. */
  lemma ReachableInv(actions: seq<Action>)
    requires EnabledRun(Initial, actions)
    ensures Inv(Run(Initial, actions))
  {
    InitialInv();
    RunKeepsInv(Initial, actions);
  }

  // ---------------------------------------------------------------------------
  // Reaching the results

  predicate Succeeds(a: Action)
  {
    a.Finish? && a.outcome.Ok?
  }

  /** Without a successful completion the flow never reaches step 4 and holds no recipes. */
  lemma {:induction false} NoResultsWithoutSuccess(s: State, actions: seq<Action>)
    requires Inv(s) && s.step <= 3
    requires EnabledRun(s, actions)
    requires forall i :: 0 <= i < |actions| ==> !Succeeds(actions[i])
    ensures Run(s, actions).step <= 3 && Run(s, actions).recipes == []
    decreases |actions|
  {
    if |actions| > 0 {
      StepKeepsInv(s, actions[0]);
      assert !Succeeds(actions[0]);
      assert forall i :: 1 <= i < |actions| ==> actions[1..][i - 1] == actions[i];
      NoResultsWithoutSuccess(Step(s, actions[0]), actions[1..]);
    }
  }

  /** From a fresh flow, step 4 is reached only through a successful generation. */
  lemma ResultsNeedSuccess(actions: seq<Action>)
    requires EnabledRun(Initial, actions)
    requires Run(Initial, actions).step == 4
    ensures exists i :: 0 <= i < |actions| && Succeeds(actions[i])
  {
    InitialInv();
    if forall i :: 0 <= i < |actions| ==> !Succeeds(actions[i]) {
      NoResultsWithoutSuccess(Initial, actions);
    }
  }

  /** One press of "Generate Recipes!" on step 3, completed with the service's outcome. */
  function Submit(s: State, reader: File -> Option<string>, transport: Request -> Outcome<string>,
                  parse: string -> Option<seq<Recipe>>): State
  {
    Step(Step(s, Generate), Finish(GenerateRecipes(s.form, reader, transport, parse)))
  }

  /** A submission ends on the results with the parsed recipes, or on the error screen with
      the failure's message (the fixed text when the failure has none); the form is kept
      either way. */
  lemma SubmitOutcome(s: State, reader: File -> Option<string>, transport: Request -> Outcome<string>,
                      parse: string -> Option<seq<Recipe>>)
    requires Inv(s) && Enabled(s, Generate)
    ensures var r := Submit(s, reader, transport, parse);
            var outcome := GenerateRecipes(s.form, reader, transport, parse);
            && r.form == s.form
            && Inv(r)
            && (outcome.Ok? ==> View(r) == StepScreen(4) && r.recipes == outcome.value)
            && (outcome.Fail? ==>
                  View(r) == ErrorScreen(ErrorText(outcome.message)) && r.step == 3 && r.recipes == [])
  {
    var started := Step(s, Generate);
    StepKeepsInv(s, Generate);
    StepKeepsInv(started, Finish(GenerateRecipes(s.form, reader, transport, parse)));
  }

  /** A failed image read shows the fixed message; a failed call shows its own message. */
  lemma SubmitFailureMessages(s: State, reader: File -> Option<string>, transport: Request -> Outcome<string>,
                              parse: string -> Option<seq<Recipe>>)
    requires Inv(s) && Enabled(s, Generate)
    ensures ReadImages(AllImages(s.form), reader).None? ==>
              View(Submit(s, reader, transport, parse)) == ErrorScreen(UnknownError)
    ensures ReadImages(AllImages(s.form), reader).Some? ==>
              var request := RecipeRequest(s.form, ReadImages(AllImages(s.form), reader).value);
              transport(request).Fail? && transport(request).message != "" ==>
                View(Submit(s, reader, transport, parse)) == ErrorScreen(transport(request).message)
  {
    SubmitOutcome(s, reader, transport, parse);
  }

  /** "Start Over" and "Create a New Meal" bring back the fresh flow; the previews that were
      staged are not revoked and stay live, referenced by nothing. */
  lemma ResetLeavesPreviewsLive(s: State)
    requires Inv(s)
    ensures Step(s, Reset) == Initial.(live := s.live)
    ensures View(Step(s, Reset)) == StepScreen(1)
    ensures forall d :: CategoryFiles(Step(s, Reset).form, d) == []
    ensures forall c, i :: 0 <= i < |CategoryFiles(s.form, c)| ==>
              CategoryFiles(s.form, c)[i].preview in Step(s, Reset).live
  {
    var r := Step(s, Reset);
    assert r.form == InitialForm;
    forall c, i | 0 <= i < |CategoryFiles(s.form, c)|
      ensures CategoryFiles(s.form, c)[i].preview in r.live
    {
      assert ImageUploader.WellFormed(ImageUploader.Staging(CategoryFiles(s.form, c), s.live));
    }
  }
}

=== FILE: text.dfy ===
/** The string and array primitives of the ECMAScript runtime that the program leans on:
    `Array.prototype.filter`, `Array.prototype.join`, `String.prototype.split` with a
    one-character separator, `String.prototype.trim`, and the decimal rendering of an
    integer inside a template literal. */
module Text {

  // ---------------------------------------------------------------------------
  // Subsequences and filtering

  /** `a` can be obtained from `b` by deleting entries, keeping the order of the rest. */
  predicate IsSubsequence<T(==)>(a: seq<T>, b: seq<T>)
    decreases |b|
  {
    if |a| == 0 then true
    else if |b| == 0 then false
    else (a[0] == b[0] && IsSubsequence(a[1..], b[1..])) || IsSubsequence(a, b[1..])
  }

  /** `xs.filter(keep)`: exactly the entries that satisfy `keep`, each as often as in `xs`,
      in their original relative order. */
  function Filter<T(==, !new)>(xs: seq<T>, keep: T -> bool): (r: seq<T>)
    ensures forall i :: 0 <= i < |r| ==> keep(r[i])
    ensures forall x :: multiset(r)[x] == if keep(x) then multiset(xs)[x] else 0
    ensures IsSubsequence(r, xs)
    decreases |xs|
  {
    if |xs| == 0 then []
    else
      assert xs == [xs[0]] + xs[1..];
      if keep(xs[0]) then [xs[0]] + Filter(xs[1..], keep) else Filter(xs[1..], keep)
  }

  /** Filtering distributes over concatenation. */
  lemma {:induction false} FilterConcat<T(!new)>(xs: seq<T>, ys: seq<T>, keep: T -> bool)
    ensures Filter(xs + ys, keep) == Filter(xs, keep) + Filter(ys, keep)
    decreases |xs|
  {
    if |xs| == 0 {
      assert xs + ys == ys;
    } else {
      assert (xs + ys)[0] == xs[0];
      assert (xs + ys)[1..] == xs[1..] + ys;
      FilterConcat(xs[1..], ys, keep);
    }
  }

  /** A list whose every entry passes the test is returned unchanged. */
  lemma {:induction false} FilterKeepsAll<T(!new)>(xs: seq<T>, keep: T -> bool)
    requires forall i :: 0 <= i < |xs| ==> keep(xs[i])
    ensures Filter(xs, keep) == xs
    decreases |xs|
  {
    if |xs| > 0 {
      FilterKeepsAll(xs[1..], keep);
      assert xs == [xs[0]] + xs[1..];
    }
  }

  // ---------------------------------------------------------------------------
  // Infixes

  predicate InfixAt(x: string, y: string, i: int)
  {
    0 <= i <= |y| - |x| && y[i..i + |x|] == x
  }

  /** `y.includes(x)`. */
  predicate IsInfix(x: string, y: string)
  {
    exists i | 0 <= i <= |y| - |x| :: InfixAt(x, y, i)
  }

  /** Whatever occurs in `t` still occurs once text is added on either side. */
  lemma InfixWiden(x: string, p: string, t: string, s: string)
    requires IsInfix(x, t)
    ensures IsInfix(x, p + t + s)
  {
    var i :| 0 <= i <= |t| - |x| && InfixAt(x, t, i);
    assert (p + t + s)[|p| + i..|p| + i + |x|] == t[i..i + |x|];
    assert InfixAt(x, p + t + s, |p| + i);
  }

  lemma InfixOfConcat(p: string, x: string, s: string)
    ensures IsInfix(x, p + x + s)
  {
    assert InfixAt(x, p + x + s, |p|);
  }

  /** Occurring in something that occurs in `z` is occurring in `z`. */
  lemma InfixTransitive(x: string, y: string, z: string)
    requires IsInfix(x, y) && IsInfix(y, z)
    ensures IsInfix(x, z)
  {
    var i :| 0 <= i <= |y| - |x| && InfixAt(x, y, i);
    var j :| 0 <= j <= |z| - |y| && InfixAt(y, z, j);
    forall k | 0 <= k < |x| ensures z[j + i + k] == x[k] {
      assert z[j..j + |y|][i + k] == y[i + k];
      assert y[i..i + |x|][k] == y[i + k];
    }
    assert z[j + i..j + i + |x|] == x;
    assert InfixAt(x, z, j + i);
  }

  // ---------------------------------------------------------------------------
  // Join and split

  /** `xs.join(sep)`. */
  function Join(xs: seq<string>, sep: string): string
    decreases |xs|
  {
    if |xs| == 0 then ""
    else if |xs| == 1 then xs[0]
    else xs[0] + sep + Join(xs[1..], sep)
  }

  /** With two entries or more, the separator follows the first entry. */
  lemma JoinHasSeparator(xs: seq<string>, sep: string)
    ensures |xs| > 1 ==> InfixAt(sep, Join(xs, sep), |xs[0]|)
  {
    if |xs| > 1 {
      assert (xs[0] + sep + Join(xs[1..], sep))[|xs[0]|..|xs[0]| + |sep|] == sep;
    }
  }

  /** Joining one more entry adds the separator and the entry at the end. */
  lemma {:induction false} JoinSnoc(xs: seq<string>, x: string, sep: string)
    ensures Join(xs + [x], sep) == if |xs| == 0 then x else Join(xs, sep) + sep + x
    decreases |xs|
  {
    if |xs| == 0 {
      assert xs + [x] == [x];
    } else if |xs| == 1 {
      assert (xs + [x])[1..] == [x];
    } else {
      assert (xs + [x])[1..] == xs[1..] + [x];
      JoinSnoc(xs[1..], x, sep);
    }
  }

  /** Every entry occurs, verbatim, in the joined text. */
  lemma {:induction false} JoinContainsEach(xs: seq<string>, sep: string)
    ensures forall i :: 0 <= i < |xs| ==> IsInfix(xs[i], Join(xs, sep))
    decreases |xs|
  {
    if |xs| == 1 {
      InfixOfConcat("", xs[0], "");
      assert "" + xs[0] + "" == xs[0];
    } else if |xs| > 1 {
      JoinContainsEach(xs[1..], sep);
      var rest := Join(xs[1..], sep);
      forall i | 0 <= i < |xs|
        ensures IsInfix(xs[i], Join(xs, sep))
      {
        if i == 0 {
          InfixOfConcat("", xs[0], sep + rest);
          assert "" + xs[0] + (sep + rest) == Join(xs, sep);
        } else {
          assert xs[i] == xs[1..][i - 1];
          InfixWiden(xs[i], xs[0] + sep, rest, "");
          assert xs[0] + sep + rest + "" == Join(xs, sep);
        }
      }
    }
  }

  /** Joining non-empty entries gives the empty text exactly when there are no entries. */
  lemma JoinOfNonEmptyIsEmpty(xs: seq<string>, sep: string)
    requires forall i :: 0 <= i < |xs| ==> xs[i] != ""
    ensures Join(xs, sep) == "" <==> |xs| == 0
  {
    if |xs| > 1 {
      assert |Join(xs, sep)| >= |xs[0]|;
    }
  }

  /** `s.split(c)` for a one-character separator `c`: the maximal runs between occurrences
      of `c`; a text without `c` (the empty text included) is one segment. */
  function Split(s: string, c: char): (r: seq<string>)
    ensures |r| >= 1
    ensures forall i :: 0 <= i < |r| ==> c !in r[i]
    ensures |r| == 1 <==> c !in s
    decreases |s|
  {
    if |s| == 0 then [""]
    else
      var rest := Split(s[1..], c);
      assert s == [s[0]] + s[1..];
      if s[0] == c then [""] + rest
      else
        assert forall i :: 1 <= i < |rest| ==> rest[1..][i - 1] == rest[i];
        [[s[0]] + rest[0]] + rest[1..]
  }

  /** Joining the segments with the separator gives back the text: splitting loses nothing. */
  lemma {:induction false} JoinSplit(s: string, c: char)
    ensures Join(Split(s, c), [c]) == s
    decreases |s|
  {
    if |s| > 0 {
      var rest := Split(s[1..], c);
      JoinSplit(s[1..], c);
      if s[0] == c {
        assert ([""] + rest)[1..] == rest;
        assert Join([""] + rest, [c]) == "" + [c] + Join(rest, [c]);
        assert s == [c] + s[1..];
      } else if |rest| == 1 {
        assert Join(rest, [c]) == rest[0];
        assert s == [s[0]] + s[1..];
      } else {
        var r := [[s[0]] + rest[0]] + rest[1..];
        assert r[1..] == rest[1..];
        assert Join(r, [c]) == [s[0]] + rest[0] + [c] + Join(rest[1..], [c]);
        assert Join(rest, [c]) == rest[0] + [c] + Join(rest[1..], [c]);
        assert s == [s[0]] + s[1..];
      }
    }
  }

  lemma {:induction false} SplitWithoutSeparator(s: string, c: char)
    requires c !in s
    ensures Split(s, c) == [s]
    decreases |s|
  {
    if |s| > 0 {
      SplitWithoutSeparator(s[1..], c);
      assert [s[0]] + s[1..] == s;
    }
  }

  lemma {:induction false} SplitAfterFirst(x: string, c: char, t: string)
    requires c !in x
    ensures Split(x + [c] + t, c) == [x] + Split(t, c)
    decreases |x|
  {
    if |x| == 0 {
      assert x + [c] + t == [c] + t;
      assert ([c] + t)[1..] == t;
    } else {
      assert (x + [c] + t)[1..] == x[1..] + [c] + t;
      SplitAfterFirst(x[1..], c, t);
      assert [x[0]] + x[1..] == x;
    }
  }

  /** Splitting on the separator undoes joining with it, as long as no entry contains it. */
  lemma {:induction false} SplitJoin(xs: seq<string>, c: char)
    requires |xs| > 0
    requires forall i :: 0 <= i < |xs| ==> c !in xs[i]
    ensures Split(Join(xs, [c]), c) == xs
    decreases |xs|
  {
    if |xs| == 1 {
      SplitWithoutSeparator(xs[0], c);
    } else {
      SplitJoin(xs[1..], c);
      SplitAfterFirst(xs[0], c, Join(xs[1..], [c]));
      assert [xs[0]] + xs[1..] == xs;
    }
  }

  // ---------------------------------------------------------------------------
  // Trimming

  /** ECMAScript's WhiteSpace and LineTerminator code points: TAB, VT, FF, ZWNBSP, the
      space separators (category Zs) and LF, CR, LS, PS. */
  const WhitespaceChars: set<char> := {
    '\t', '\n', '\U{000B}', '\U{000C}', '\r', ' ', '\U{00A0}', '\U{1680}',
    '\U{2000}', '\U{2001}', '\U{2002}', '\U{2003}', '\U{2004}', '\U{2005}', '\U{2006}',
    '\U{2007}', '\U{2008}', '\U{2009}', '\U{200A}',
    '\U{2028}', '\U{2029}', '\U{202F}', '\U{205F}', '\U{3000}', '\U{FEFF}' }

  predicate IsWhitespace(c: char)
  {
    c in WhitespaceChars
  }

  predicate AllWhitespace(s: string)
  {
    forall i :: 0 <= i < |s| ==> IsWhitespace(s[i])
  }

  /** The first index at or after `k` whose character is not white space, or `|s|`. */
  function SkipWhitespace(s: string, k: nat): (n: nat)
    requires k <= |s|
    ensures k <= n <= |s|
    ensures forall i :: k <= i < n ==> IsWhitespace(s[i])
    ensures n == |s| || !IsWhitespace(s[n])
    decreases |s| - k
  {
    if k < |s| && IsWhitespace(s[k]) then SkipWhitespace(s, k + 1) else k
  }

  /** The index just past the last character in `s[lo..e]` that is not white space, or `lo`. */
  function SkipWhitespaceBack(s: string, lo: nat, e: nat): (n: nat)
    requires lo <= e <= |s|
    ensures lo <= n <= e
    ensures forall i :: n <= i < e ==> IsWhitespace(s[i])
    ensures n == lo || !IsWhitespace(s[n - 1])
    decreases e
  {
    if lo < e && IsWhitespace(s[e - 1]) then SkipWhitespaceBack(s, lo, e - 1) else e
  }

  /** `s.trim()`: `s` with its leading and trailing white space removed and nothing else. */
  function Trim(s: string): (r: string)
    ensures exists i | 0 <= i <= |s| - |r| ::
              InfixAt(r, s, i) && AllWhitespace(s[..i]) && AllWhitespace(s[i + |r|..])
    ensures |r| == 0 || (!IsWhitespace(r[0]) && !IsWhitespace(r[|r| - 1]))
  {
    var a := SkipWhitespace(s, 0);
    var b := SkipWhitespaceBack(s, a, |s|);
    assert AllWhitespace(s[..a]) by {
      forall i | 0 <= i < a ensures IsWhitespace(s[..a][i]) {
        assert s[..a][i] == s[i];
      }
    }
    assert AllWhitespace(s[b..]) by {
      forall i | 0 <= i < |s| - b ensures IsWhitespace(s[b..][i]) {
        assert s[b..][i] == s[b + i];
      }
    }
    assert InfixAt(s[a..b], s, a);
    s[a..b]
  }

  /** Trimming is determined by where the text proper starts and ends: white space before
      `a` and from `b` on, and characters other than white space at both ends of `s[a..b]`
      when it is not empty. */
  lemma TrimBetween(s: string, a: nat, b: nat)
    requires a <= b <= |s|
    requires forall i :: 0 <= i < a ==> IsWhitespace(s[i])
    requires forall i :: b <= i < |s| ==> IsWhitespace(s[i])
    requires a < b ==> !IsWhitespace(s[a]) && !IsWhitespace(s[b - 1])
    ensures Trim(s) == s[a..b]
  {
    var a' := SkipWhitespace(s, 0);
    if a < b {
      assert a' == a;
      var b' := SkipWhitespaceBack(s, a, |s|);
      assert b' == b;
    } else {
      assert a' == |s|;
    }
  }

  /** In `w1 + t + w2`, every character outside the copy of `t[a..b]` is white space when
      `w1`, `w2` and everything of `t` outside `t[a..b]` are. */
  lemma WhitespaceAround(w1: string, t: string, w2: string, a: nat, b: nat)
    requires AllWhitespace(w1) && AllWhitespace(w2)
    requires a <= b <= |t|
    requires forall i :: 0 <= i < a ==> IsWhitespace(t[i])
    requires forall i :: b <= i < |t| ==> IsWhitespace(t[i])
    ensures var u := w1 + t + w2;
            forall i :: 0 <= i < |u| && (i < |w1| + a || |w1| + b <= i) ==> IsWhitespace(u[i])
  {
    var u := w1 + t + w2;
    var n := |w1|;
    forall i | 0 <= i < |u| && (i < n + a || n + b <= i) ensures IsWhitespace(u[i]) {
      if i < n {
        assert u[i] == w1[i];
      } else if i < n + |t| {
        assert u[i] == t[i - n];
      } else {
        assert u[i] == w2[i - n - |t|];
      }
    }
  }

  /** The copy of `t[a..b]` inside `w1 + t + w2`. */
  lemma SliceOfMiddle(w1: string, t: string, w2: string, a: nat, b: nat)
    requires a <= b <= |t|
    ensures var u := w1 + t + w2;
            |w1| + b <= |u| && u[|w1| + a..|w1| + b] == t[a..b]
  {
    var u := w1 + t + w2;
    var n := |w1|;
    forall k | 0 <= k < b - a ensures u[n + a..n + b][k] == t[a..b][k] {
      assert u[n + a + k] == t[a + k];
    }
  }

  /** White space around a text does not change what trimming yields. */
  lemma TrimIgnoresSurroundingWhitespace(w1: string, t: string, w2: string)
    requires AllWhitespace(w1) && AllWhitespace(w2)
    ensures Trim(w1 + t + w2) == Trim(t)
  {
    var a := SkipWhitespace(t, 0);
    var b := SkipWhitespaceBack(t, a, |t|);
    WhitespaceAround(w1, t, w2, a, b);
    if a < b {
      TrimOfPadded(w1, t, w2, a, b);
    } else {
      TrimBetween(w1 + t + w2, 0, 0);
    }
  }

  /** A text with something other than white space, padded with white space, trims to that
      something. */
  lemma TrimOfPadded(w1: string, t: string, w2: string, a: nat, b: nat)
    requires a < b <= |t|
    requires !IsWhitespace(t[a]) && !IsWhitespace(t[b - 1])
    requires var u := w1 + t + w2;
             forall i :: 0 <= i < |u| && (i < |w1| + a || |w1| + b <= i) ==> IsWhitespace(u[i])
    ensures Trim(w1 + t + w2) == t[a..b]
  {
    var u := w1 + t + w2;
    var n := |w1|;
    SliceOfMiddle(w1, t, w2, a, b);
    assert u[n + a] == t[a] && u[n + b - 1] == t[b - 1];
    TrimBetween(u, n + a, n + b);
  }

  /** Trimming twice is trimming once. */
  lemma TrimIdempotent(s: string)
    ensures Trim(Trim(s)) == Trim(s)
  {
    var r := Trim(s);
    if |r| > 0 {
      TrimBetween(r, 0, |r|);
    }
  }

  // ---------------------------------------------------------------------------
  // Decimal rendering of integers

  function DigitChar(d: nat): (c: char)
    requires d < 10
  {
    ('0' as int + d) as char
  }

  /** The decimal digits of `n`, most significant first, without leading zeros. */
  function NatToString(n: nat): (r: string)
    ensures |r| >= 1
    ensures forall i :: 0 <= i < |r| ==> '0' <= r[i] <= '9'
    ensures n == 0 <==> r == "0"
    ensures n > 0 ==> r[0] != '0'
    decreases n
  {
    if n < 10 then [DigitChar(n)] else NatToString(n / 10) + [DigitChar(n % 10)]
  }

  /** `${n}` for an integral number: a minus sign for negatives, then the decimal digits. */
  function IntToString(n: int): (r: string)
    ensures |r| >= 1
    ensures r[0] == '-' <==> n < 0
    ensures n >= 0 ==> (forall i :: 0 <= i < |r| ==> '0' <= r[i] <= '9') && ParseNat(r) == n
    ensures n < 0 ==> (forall i :: 1 <= i < |r| ==> '0' <= r[i] <= '9') && ParseNat(r[1..]) == -n
    ensures n == 0 <==> r == "0"
    ensures n > 0 ==> r[0] != '0'
    ensures n < 0 ==> |r| >= 2 && r[1] != '0'
  {
    if n < 0 then
      NatToStringRoundTrip(-n);
      assert ("-" + NatToString(-n))[1..] == NatToString(-n);
      "-" + NatToString(-n)
    else
      NatToStringRoundTrip(n);
      NatToString(n)
  }

  /** The value of a string of decimal digits. */
  function ParseNat(s: string): nat
    requires forall i :: 0 <= i < |s| ==> '0' <= s[i] <= '9'
    decreases |s|
  {
    if |s| == 0 then 0 else 10 * ParseNat(s[..|s| - 1]) + (s[|s| - 1] as int - '0' as int)
  }

  /** Reading the rendered digits back gives the number: the rendering loses nothing. */
  lemma {:induction false} NatToStringRoundTrip(n: nat)
    ensures ParseNat(NatToString(n)) == n
    decreases n
  {
    if n >= 10 {
      NatToStringRoundTrip(n / 10);
      var s := NatToString(n);
      assert s[..|s| - 1] == NatToString(n / 10);
    }
  }
}

=== FILE: types.dfy ===
/** The records the program passes between its components (types.ts). Numbers that the
    program only ever holds as integers are `int`; strings are sequences of characters. */
module Types {

  newtype byte = x: int | 0 <= x < 256

  /** A picked file: its name, its media type (`File.type`) and its contents. */
  datatype File = File(name: string, mediaType: string, bytes: seq<byte>)

  /** A staged image: a unique id, the picked file and the object URL of its preview. */
  datatype ImageFile = ImageFile(id: string, file: File, preview: string)

  /** The recipe flow's form. */
  datatype FormData = FormData(
    vegetables: seq<ImageFile>,
    fruits: seq<ImageFile>,
    proteins: seq<ImageFile>,
    greens: seq<ImageFile>,
    spices: seq<string>,
    otherSpices: string,
    allergies: seq<string>,
    otherAllergies: string,
    dietaryChoices: seq<string>,
    mood: string,
    cookingTime: int,
    servings: int,
    mealType: string,
    cuisine: string)

  /** One generated recipe. */
  datatype Recipe = Recipe(
    recipeName: string,
    description: string,
    ingredients: seq<string>,
    instructions: seq<string>,
    missingItems: seq<string>,
    cookingTime: int)

  /** The feast flow's form: the six fields the feast planner initialises and edits. */
  datatype FeastFormData = FeastFormData(
    theme: string,
    guests: int,
    ageGroup: string,
    cuisine: string,
    allergies: seq<string>,
    otherAllergies: string)

  /** One course of a feast menu. */
  datatype Dish = Dish(name: string, description: string)

  /** A generated feast menu. */
  datatype FeastMenu = FeastMenu(
    menuTitle: string,
    description: string,
    appetizer: Dish,
    mainCourse: Dish,
    dessert: Dish,
    beverage: Dish)
}

=== FILE: wrappers.dfy ===
/** Small failure-carrying datatypes shared by every module of the model. */
module Wrappers {

  /** A value that may be absent: `null`/`undefined` in the program, or a lookup that found nothing. */
  datatype Option<+T> = None | Some(value: T)

  /** The settled result of an operation that may throw. `Fail` carries the thrown error's
      `message`; the empty string stands for an error whose message is empty or missing. */
  datatype Outcome<+T> = Ok(value: T) | Fail(message: string)
}
